=== FILE: README.md ===
# jsonapi-parse in Dafny

A model of the JSON:API deserializer of `jsonapi-parse`, in two versions:

- `dist/jsonapi.js` is the self-contained version and the primary one here.
- `src/json-api.js` is the older lodash-based version.

`jsonapi.parse` takes a response: JSON text, or an object already parsed. It
deals with the input as follows:

- It returns input that is neither text nor an object, and already-parsed
  results, unchanged. dist also returns an object that has none of `data`,
  `errors` and `meta`; src deserializes every plain object.
- Otherwise it deserializes the compound document, as defined in section
  "Document Structure" of JSON:API 1.0.
- Each relationship identifier is resolved against the `included` resources.
  A match is inlined recursively, with a guard against cycles.
- Each resource is flattened into one plain record of `links`, `attributes`
  and `id`.
- The result is stamped `jsonapi.parsed = true`.

The model is functional. JavaScript values are an immutable datatype, and
each source function is a pure function:

- `Json` holds values, truthiness and property reads.
- `Resources` holds the typed resource, identifier and relationship objects,
  and their decoding from values.
- `Lookup` is the `included` pool:
  - dist uses a last-wins index;
  - src uses a first-match scan.
- `Engine` holds `populateRelatedFields`, `getMatchingRecord` and `flatten`.
  They are shared by both versions and parameterised by the pool.
- `Documents` holds result assembly and the `parsed` marker.
- `Dist` and `Src` hold the two `jsonapi.parse` and `deserialize` functions.

The proofs sit in these modules:

- `Chains`: why the recursion stops, and a bound on its depth.
- `Failures`: when deserialization throws.
- `Variants`: when the two versions agree.

Dafny cannot define a non-terminating function, so termination is proved
with the measure "pool keys not yet on the ancestor chain".

Neither source file re-attaches `meta` to the records it builds: `flatten`
drops the `meta` of a resource, and only identifiers left unresolved keep
theirs. The model does the same.

## Model

| member | source | states |
|---|---|---|
| `Json.Truthy` | dist/jsonapi.js:36-39 | exactly `undefined`, `null`, `false`, `0` and `""` are falsy |
| `Json.Utf16Length` | src/json-api.js:46-52 | a string's length in UTF-16 code units lies between its character count and twice that, and equals the character count exactly when no character lies outside the Basic Multilingual Plane |
| `Json.Utf16Append` | src/json-api.js:46-52 | the code units of a concatenation are those of its parts, so the count is a sum over characters |
| `Json.Utf16Single` | src/json-api.js:46-52 | a character outside the Basic Multilingual Plane is two code units (a surrogate pair), any other character one |
| `Resources.DecodeIdent` | dist/jsonapi.js:129-141 | an identifier is a plain object with string `id` and `type`; the decoded identifier re-encodes to exactly the input object |
| `Resources.DecodeAsValue` | dist/jsonapi.js:137-147 | round trip: decoding the object of a well-formed identifier gives back that identifier, so an unresolved identifier is returned with all its members, `meta` included |
| `Resources.DecodeRelationship` | dist/jsonapi.js:97-120 | a relationship object links nothing exactly when its `data` is falsy; a single identifier decodes to the object in `data`; for an array, identifier i re-encodes to element i of `data` |
| `Resources.DecodeRelationships` | dist/jsonapi.js:91-96 | a falsy `relationships` member means no relationships, a truthy primitive an empty set of them; an object decodes exactly when every member does, and member k becomes the relationship its own value decodes to |
| `Resources.DecodeResource` | dist/jsonapi.js:57-68 | a resource decodes exactly when it is a plain object with string `id` and `type` whose `attributes` and `relationships` decode; it keeps the `id`, `type`, `links`, `attributes` and `relationships` of its object |
| `Resources.DecodeIncluded` | dist/jsonapi.js:51-55 | a missing or primitive `included` gives an empty pool; an array decodes exactly when every element does, and resource i is what element i decodes to |
| `Resources.DecodeEncodeRelationship` | dist/jsonapi.js:97-120 | round trip: a relationship object built from well-formed data decodes back to that data, identifiers in order |
| `Resources.DecodeEncodeRelationships` | dist/jsonapi.js:91-96 | round trip: a `relationships` object built from well-formed data decodes back to it, member by member |
| `Resources.DecodeEncodeResource` | dist/jsonapi.js:57-68 | round trip: a resource object built from a well-formed resource decodes back to it, attributes, relationships and links included |
| `Resources.DecodeEncodeIncluded` | dist/jsonapi.js:51-55 | round trip: an `included` array built from well-formed resources decodes back to them, in order |
| `Lookup.BuildIndex` | dist/jsonapi.js:51-55 | the index holds exactly the keys of `included`, and each key maps to the last entry with that key |
| `Lookup.Pool.Find` | dist/jsonapi.js:141-147 | a lookup finds only a resource with the identifier's (type, id) key, and finds nothing exactly when no resource of the pool has that key |
| `Lookup.FindFirst` | src/json-api.js:124-130 | nothing is found exactly when no entry has the key; otherwise the first entry with that key is found |
| `Lookup.LookupsAgree` | src/json-api.js:124-135 | when duplicate keys carry the same resource, the last-wins index and the first-match scan find the same resource for every key |
| `Lookup.BuildStringIndex` | dist/jsonapi.js:51-55 | as written, the index is keyed by `type + '-' + id`: it holds one entry per string key of `included`, each an entry of `included` whose own string key is that key |
| `Lookup.FindByString` | dist/jsonapi.js:141-142 | as written, the lookup finds nothing exactly when no entry has the identifier's string key, and otherwise a resource sharing that string key, not necessarily its (type, id) |
| `Lookup.StringKeyCollision` | dist/jsonapi.js:141-142 | as written, the identifier `("a", "b-c")` finds the included resource `("a-b", "c")`, a different resource |
| `Lookup.StringIndexAgrees` | dist/jsonapi.js:53 | when no entry of `included` shares the identifier's string key under a different (type, id), the string-keyed lookup finds what the pair-keyed lookup finds |
| `Lookup.DashFreeTypesInjective` | dist/jsonapi.js:141 | two keys whose types contain no `-` have equal string keys only if they are equal |
| `Lookup.DashFreeNoCollision` | dist/jsonapi.js:141-142 | when no type contains `-`, no entry of `included` collides with an identifier, so the lookup as written is the intended one |
| `Engine.OnChain` | dist/jsonapi.js:129-137 | the cycle guard holds exactly when the identifier's (type, id) key is one of the ancestor chain's keys |
| `Engine.FreshShrinks` | dist/jsonapi.js:137-149 | descending into a pool resource whose key is not on the chain leaves strictly fewer pool keys unvisited |
| `Engine.Flatten` | dist/jsonapi.js:155-157 | the record has exactly `links`, `id` and the attribute names; `id` is the resource's id; attributes override `links`; `id` overrides an attribute `id` |
| `Engine.WriteBack` | dist/jsonapi.js:107-119 | writing inlined values throws exactly when there is something to write and no `attributes` object; otherwise the written values replace attributes of the same name and all others are kept |
| `Engine.Resolve` | dist/jsonapi.js:126-152 | an identifier on the ancestor chain or missing from the pool comes back unchanged; every resolved value carries the identifier's id |
| `Engine.ResolveInlinesMatch` | dist/jsonapi.js:141-151 | an identifier off the chain with a match becomes the match expanded against the same chain: it carries the match's attributes that no relationship replaces, and its inlined relationships |
| `Engine.ResolveAll` | dist/jsonapi.js:107-112 | an array of identifiers resolves to an array of the same length, in order, each element resolved on its own; it throws if one of them throws |
| `Engine.ResolveData` | dist/jsonapi.js:104-120 | a single identifier gives one value with that identifier's id; an array of identifiers gives an array of the same length whose element i has the id of identifier i; either throws exactly when resolving an identifier throws |
| `Engine.Inline` | dist/jsonapi.js:88-123 | exactly the relationships with truthy `data` get a value; each is resolved against the caller's chain plus the record, the same chain for every sibling; it throws exactly when one of them throws |
| `Engine.Expand` | dist/jsonapi.js:149-157 | the expanded record has exactly the members `links`, `id`, the attribute names and the inlined relationship names: the resource's id, every inlined relationship, every attribute no relationship replaces, and the resource's `links` unless an attribute or relationship is named `links`; it succeeds when inlining succeeds and there are `attributes` or nothing to write, and throws when a non-empty write meets a missing `attributes` |
| `Engine.ExpandEach` | dist/jsonapi.js:57-65 | array `data` gives an array of the same length and order, element i having the id of `data[i]` |
| `Chains.ResolveDescends` | src/json-api.js:112-139 | expanding a match extends a valid ancestor chain to a valid one, with a key not yet on it, and the termination measure drops |
| `Chains.DescentKeys` | src/json-api.js:74-76 | past the root record, the keys on a valid chain are distinct keys of the pool |
| `Chains.DescentBounded` | src/json-api.js:109-139 | the nesting depth is at most one more than the number of distinct (type, id) keys in `included` |
| `Documents.Marked` | dist/jsonapi.js:37 | only an object whose `jsonapi` member is an object can carry the marker |
| `Documents.JsonApiOf` | dist/jsonapi.js:73 | the result's `jsonapi` is truthy: the input's member when that is truthy, and a new empty object otherwise |
| `Documents.Assemble` | dist/jsonapi.js:71-84 | the result has `data` and `jsonapi`, and has `meta` and `errors` exactly when they are truthy on the input, holding the input's values |
| `Documents.SetParsed` | dist/jsonapi.js:42 | an object gains `parsed: true` and keeps its other members; assigning to a primitive changes nothing |
| `Documents.Stamp` | dist/jsonapi.js:42 | stamping changes only the result's `jsonapi` member |
| `Documents.StampMarks` | dist/jsonapi.js:37-42 | a stamped result carries the marker exactly when the input's `jsonapi` is an object or falsy, and it keeps every other member of that `jsonapi` object |
| `Dist.Classify` | dist/jsonapi.js:11-29 | processing continues exactly for an object (plain or an instance) or text that parses, with that object or the parsed value; text with a syntax error is returned, other parse errors are thrown, and any other input is returned |
| `Dist.Screen` | dist/jsonapi.js:31-39 | `null` and `undefined` throw; deserialization goes ahead exactly for a value that has one of `data`, `errors`, `meta` and no marker; every other value is returned |
| `Dist.DecodeData` | dist/jsonapi.js:57-69 | array `data` decodes exactly when every element does, record i being what element i decodes to; an object decodes exactly when it is a resource, to that resource; any other value to no records |
| `Dist.Deserialize` | dist/jsonapi.js:48-85 | array `data` gives the array of its records each expanded with an empty chain against the last-wins index, and throws exactly when one of them throws; object `data` gives that record expanded the same way; either keeps length, order and ids; any other `data` gives `undefined`; `meta` and `errors` pass through when truthy |
| `Dist.Parse` | dist/jsonapi.js:5-45 | non-text, non-object input is returned; text with a syntax error is returned and other parse errors propagate; `null` throws; a value without `data`, `errors` and `meta` is returned; a marked value is returned; any other document is returned as the stamped result of `deserialize`, or throws `TypeError` when `deserialize` does; that result is marked exactly when its `jsonapi` could take the marker |
| `Dist.ParseIdempotent` | dist/jsonapi.js:36-44 | parsing the result of `parse` returns that result, so `parse(parse(x))` equals `parse(x)` |
| `Dist.ParseNeverThrows` | dist/jsonapi.js:107-115 | a document whose resources all have `attributes` deserializes without throwing, whatever cycles its relationships form |
| `Src.Classify` | src/json-api.js:11-29 | processing continues exactly for a plain object or text that parses, with that object or the parsed value; text with a syntax error is returned, other parse errors are thrown, and any other input, a class instance included, is returned |
| `Src.Screen` | src/json-api.js:31-34 | `null` and `undefined` throw; deserialization goes ahead exactly for a value without the marker; a marked value is returned |
| `Src.CharRecord` | src/json-api.js:142-145 | a UTF-16 code unit flattens to a record with exactly `links` and `id`, both `undefined`: the members of any flattened resource without `attributes` |
| `Src.DecodeData` | src/json-api.js:46-52 | array `data` decodes exactly when every element does, record i being what element i decodes to; a string to one entry per UTF-16 code unit; an absent or other primitive `data` to none |
| `Src.Deserialize` | src/json-api.js:43-68 | `data` always becomes an array: for array `data`, its records each expanded with an empty chain against the first-match scan, in order with their ids, throwing exactly when one of them throws; for a string, one record per UTF-16 code unit, each with only `links` and `id`, both `undefined`; otherwise `[]` |
| `Src.Parse` | src/json-api.js:5-40 | only text and plain objects are processed; a syntax error returns the text; `null` throws; only the marker short-circuits; every other input is returned as the stamped result of `deserialize`, or throws `TypeError` when `deserialize` does; that result is marked exactly when its `jsonapi` could take the marker and has array `data` |
| `Src.ParseIdempotent` | src/json-api.js:31-39 | parsing the result of `parse` returns that result |
| `Src.ParseNeverThrows` | src/json-api.js:90-103 | a document whose resources all have `attributes` deserializes without throwing |
| `Failures.ResolveSucceeds` | dist/jsonapi.js:126-152 | against a pool of resources with `attributes`, resolving an identifier never throws |
| `Failures.ResolveAllSucceeds` | dist/jsonapi.js:107-112 | an array of identifiers resolves without throwing against such a pool |
| `Failures.ResolveDataSucceeds` | dist/jsonapi.js:104-120 | relationship data resolves without throwing against such a pool |
| `Failures.InlineSucceeds` | dist/jsonapi.js:88-123 | population computes every inlined value without throwing against such a pool |
| `Failures.ExpandSucceeds` | dist/jsonapi.js:149-151 | a record with `attributes` expands without throwing against such a pool |
| `Failures.ExpandFailsWithoutAttributes` | dist/jsonapi.js:107-115 | a record without `attributes` with a linked relationship throws, whatever the pool holds and even when no identifier matches |
| `Failures.ExpandEachSucceeds` | dist/jsonapi.js:57-65 | array `data` of records with `attributes` expands without throwing |
| `Failures.PoolsAttributed` | dist/jsonapi.js:51-55 | both pools find only members of `included`, so they inherit its `attributes` |
| `Variants.ResolveAgrees` | src/json-api.js:109-140 | pools that find the same resources resolve an identifier the same way |
| `Variants.ResolveAllAgrees` | src/json-api.js:90-95 | such pools resolve an array of identifiers the same way |
| `Variants.ResolveDataAgrees` | src/json-api.js:87-103 | such pools resolve relationship data the same way |
| `Variants.InlineAgrees` | src/json-api.js:71-106 | such pools populate a record the same way |
| `Variants.InlineFromParts` | src/json-api.js:78-105 | population is determined by the values its relationships resolve to |
| `Variants.ExpandAgrees` | src/json-api.js:137-139 | such pools expand a record to the same flattened record |
| `Variants.ExpandEachAgrees` | src/json-api.js:46-52 | such pools give the same array for array `data` |
| `Variants.DeserializesAgree` | src/json-api.js:43-68 | with array `data`, and duplicate keys in `included` carrying identical resources, dist's and src's `deserialize` return the same result |
| `Variants.ParsesAgree` | src/json-api.js:5-68 | for a plain object with array `data`, where duplicate keys in `included` carry identical resources, `dist` and `src` return the same outcome |

## Left out

- `JSON.parse` is a parameter that maps a text to a value or to a named
  error. Its grammar is not modelled.
- These are not modelled:
  - the module and global export shims and the wrapping function
    (dist/jsonapi.js:1-2, 225-235; src/json-api.js:1-2, 147);
  - the build script gulpfile.js;
  - the mocha test suite tests/tests.js.
- lodash (`_.isString`, `_.isPlainObject`, `_.map`, `_.each`, `_.findWhere`,
  `_.extend`) is taken at its documented semantics.
- The private helpers of dist/jsonapi.js:160-223 are folded into the
  functions that use them:
  - `each`, `map` and `every` become sequence and map comprehensions;
  - `findWhere` becomes `OnChain` and `FindFirst`;
  - `extend` becomes map union in `Flatten`.
- Object identity and aliasing are not modelled, so every record is a fresh
  value. This covers:
  - the in-place writes into `record.attributes` of the input;
  - the `jsonapi` object being shared between input and result;
  - the identifier object being returned by reference.
- Numbers are integers; floating point is not modelled.
- Strings are sequences of Unicode scalar values. A JavaScript string may
  hold a lone surrogate, which `JSON.parse` can produce from a `\u` escape;
  such strings are not modelled. `Json.Utf16Length` counts the code units
  of every string the model can hold.
- Several input shapes make the source do something JavaScript-specific, and
  they do not decode, so they are outside the model. Deserialization of them
  is not modelled:
  - `id` or `type` values that are not strings;
  - a relationship that is `undefined` or `null`, where reading `data` throws;
  - relationship `data` that is a truthy primitive;
  - array or class-instance `relationships`;
  - non-object `attributes`;
  - class-instance `attributes`, which dist/jsonapi.js:107 and 115 write
    into and dist/jsonapi.js:156 copies like a plain object;
  - class-instance resources, identifiers and relationship `data`;
  - a class-instance relationship object, whose `data` dist/jsonapi.js:100
    reads as for a plain object;
  - an entry of a relationship's `data` array that is not an object: `null`
    throws a `TypeError` when dist/jsonapi.js:132 reads its `id`, and a
    number or string has `id` and `type` undefined, so it matches no
    resource with string `id` and `type` and is returned as it is;
  - class-instance `data` in dist, which dist/jsonapi.js:66 treats as a
    resource;
  - entries of `included` or of array `data` that are not objects: `null`
    throws at dist/jsonapi.js:53 and dist/jsonapi.js:91, and a number
    flattens to a record with `links` and `id` both `undefined`;
  - object-valued `included`;
  - object-valued `data` in src;
  - a `jsonapi` member that is an array.
- Non-termination of dist under a string-key collision is not modelled. When
  two keys collide, the cycle guard can miss a cycle and the source recurses
  without bound. The model uses the pair key (see Findings), and
  `Lookup.StringIndexAgrees` gives the condition under which the two agree.
- Dist.Parse: defined only for inputs that reach deserialization with a
  document that decodes (the shapes above are excluded); inputs that stop
  earlier are all covered.
- Src.Parse: the same restriction as `Dist.Parse`.
- Dist.ParseIdempotent: it excludes two cases:
  - text whose JSON value is itself a string, which a second call parses
    again;
  - a deserialized input whose `jsonapi` is a truthy primitive, which cannot
    take the marker, so a second call deserializes again.
- Src.ParseIdempotent: it excludes only a deserialized input whose
  `jsonapi` is a truthy primitive. Text whose JSON is a string is no
  exception there, because src deserializes such a value.

## Findings

| source | as written | input that shows it | evidently intended | confidence | as-written member | corrected member |
|---|---|---|---|---|---|---|
| dist/jsonapi.js:141-142 | `included` is indexed and looked up by the string `type + '-' + id`, which different (type, id) pairs can share | an identifier with type `a` and id `b-c`, and an included resource with type `a-b` and id `c`: the identifier resolves to that resource | look up the resource whose `type` and `id` both equal the identifier's, as the cycle guard and src/json-api.js:124-130 do | medium, not executed | `Lookup.StringKeyCollision` | `Lookup.BuildIndex` |

=== FILE: chains.dfy ===
/** The ancestor chains the resolver builds, and why recursion stops: the
    cycle guard and the lookup compare the same (type, id) key, so every
    descent into a match pushes a key not yet on the chain. */
module Chains {
  import opened Wrappers
  import opened Resources
  import opened Lookup
  import opened Engine

  /** `chain` is one the resolver can build: a root record (a member of
      `data`), then pool resources, each found under a key that no earlier
      record on the chain has. */
  ghost predicate Descent(pool: Pool, chain: seq<Resource>)
    requires pool.Valid()
  {
    |chain| <= 1 ||
    var prefix, last := chain[..|chain| - 1], chain[|chain| - 1];
    && Descent(pool, prefix)
    && last.Identity() !in ChainKeys(prefix)
    && pool.Find(last.Identity()) == Some(last)
  }

  /** When `Resolve(x, pool, chain)` expands a match, the relationships of
      that match are resolved against a chain that is again a descent. */
  lemma ResolveDescends(x: Ident, pool: Pool, chain: seq<Resource>)
    requires pool.Valid() && Descent(pool, chain)
    requires !OnChain(x, chain) && pool.Find(x.Identity()).Some?
    ensures Descent(pool, chain + [pool.Find(x.Identity()).value])
    ensures |pool.Keys() - ChainKeys(chain + [pool.Find(x.Identity()).value])| < |pool.Keys() - ChainKeys(chain)|
  {
    var m := pool.Find(x.Identity()).value;
    var c := chain + [m];
    assert c[..|c| - 1] == chain;
    FreshShrinks(pool, chain, m);
  }

  lemma SubsetCardinality<T>(a: set<T>, b: set<T>)
    requires a <= b
    ensures |a| <= |b|
  {
    assert b == a + (b - a);
  }

  lemma ChainKeysTail(chain: seq<Resource>)
    requires |chain| >= 1
    ensures ChainKeys(chain[1..]) <= ChainKeys(chain)
  {
    forall a | a in chain[1..] ensures a in chain { }
  }

  /** Past the root, a descent holds distinct pool keys. */
  lemma {:induction false} DescentKeys(pool: Pool, chain: seq<Resource>)
    requires pool.Valid() && Descent(pool, chain) && |chain| >= 1
    ensures ChainKeys(chain[1..]) <= pool.Keys()
    ensures |ChainKeys(chain[1..])| == |chain| - 1
  {
    if |chain| == 1 {
      assert chain[1..] == [];
    } else {
      var prefix, last := chain[..|chain| - 1], chain[|chain| - 1];
      DescentKeys(pool, prefix);
      var before := ChainKeys(prefix[1..]);
      assert chain[1..] == prefix[1..] + [last];
      ChainKeysSnoc(prefix[1..], last);
      ChainKeysTail(prefix);
      assert last.Identity() !in before;
      assert ChainKeys(chain[1..]) == before + {last.Identity()};
    }
  }

  /** The nesting of expansions is bounded by the pool: a chain holds the
      root and at most one record per distinct key of `included`. Every chain
      the engine builds is a `Descent`, with `ResolveDescends` as the step
      from one expansion to the next. */
  lemma DescentBounded(pool: Pool, chain: seq<Resource>)
    requires pool.Valid() && Descent(pool, chain)
    ensures |chain| <= |pool.Keys()| + 1
  {
    if |chain| >= 1 {
      DescentKeys(pool, chain);
      SubsetCardinality(ChainKeys(chain[1..]), pool.Keys());
    }
  }

}

=== FILE: dist.dfy ===
/** `jsonapi.parse` and `deserialize` of dist/jsonapi.js: input
    classification, the top-level member check, the idempotence marker, and
    deserialization against a last-wins index of `included`. */
module Dist {
  import opened Wrappers
  import opened Json
  import opened Resources
  import opened Lookup
  import opened Engine
  import opened Documents
  import Failures

  /** The `data` member as `deserialize` sees it: an array of resources, a
      single resource, or anything else (which leaves `data` undefined). */
  datatype Data = Collection(records: seq<Resource>) | Single(record: Resource) | Neither

  /** The members `deserialize` interprets, in typed form. */
  datatype Doc = Doc(data: Data, included: seq<Resource>)

  function DecodeData(v: Value): (r: Option<Data>)
    ensures !v.Arr? && !v.Obj? && !v.Instance? ==> r == Some(Neither)
    ensures r.Some? && r.value.Collection? ==> v.Arr? && |r.value.records| == |v.items|
    ensures r.Some? && r.value.Collection? ==> forall i :: 0 <= i < |v.items| ==> Get(v.items[i], "id") == Str(r.value.records[i].id)
    ensures r.Some? && r.value.Single? ==> v.Obj? && Get(v, "id") == Str(r.value.record.id)
    ensures r.Some? && r.value.Collection? ==> forall i :: 0 <= i < |v.items| ==> DecodeResource(v.items[i]) == Some(r.value.records[i])
    ensures r.Some? && r.value.Single? ==> DecodeResource(v) == Some(r.value.record)
    ensures v.Arr? ==> (r.Some? <==> forall i :: 0 <= i < |v.items| ==> DecodeResource(v.items[i]).Some?)
    ensures v.Obj? ==> (r.Some? <==> DecodeResource(v).Some?)
  {
    match v
    case Arr(items) =>
      (match DecodeEach(items, DecodeResource)
       case Some(rs) => Some(Collection(rs))
       case None => None)
    case Obj(_) =>
      (match DecodeResource(v)
       case Some(r) => Some(Single(r))
       case None => None)
    case Instance(_) => None
    case _ => Some(Neither)
  }

  /** The document in typed form, when its resources have the shapes the
      model covers and its `jsonapi` member is not an array. */
  function DecodeDoc(json: Value): Option<Doc> {
    if Get(json, "jsonapi").Arr? then None
    else
      match (DecodeData(Get(json, "data")), DecodeIncluded(Get(json, "included")))
      case (Some(data), Some(included)) => Some(Doc(data, included))
      case _ => None
  }

  /** dist/jsonapi.js, lines 11-29: text is handed to `JSON.parse`, an
      object is used as it is, anything else is returned. */
  function Classify(response: Value, parseText: string -> JsonText): (s: Step)
    ensures s.Continue? <==> response.Obj? || response.Instance? || (response.Str? && parseText(response.s).Parsed?)
    ensures s.Continue? ==> s.json == (if response.Str? then parseText(response.s).value else response)
    ensures response.Str? && parseText(response.s) == Raised("SyntaxError") ==> s == Finish(Returned(response))
    ensures response.Str? && parseText(response.s).Raised? && parseText(response.s).name != "SyntaxError" ==>
      s == Finish(Threw(parseText(response.s).name))
    ensures !response.Str? && !response.Obj? && !response.Instance? ==> s == Finish(Returned(response))
  {
    match response
    case Str(s) =>
      (match parseText(s)
       case Parsed(json) => Continue(json)
       case Raised(name) => if name == "SyntaxError" then Finish(Returned(response)) else Finish(Threw(name)))
    case Obj(_) => Continue(response)
    case Instance(_) => Continue(response)
    case _ => Finish(Returned(response))
  }

  /** dist/jsonapi.js, lines 31-39: reading a member of `null` throws; an
      object with none of `data`, `errors`, `meta` is not a document; a
      marked one was already parsed. */
  function Screen(json: Value): (s: Step)
    ensures s.Continue? <==> && !json.Null? && !json.Undefined? && !Marked(json)
                             && (!Get(json, "data").Undefined? || !Get(json, "errors").Undefined? || !Get(json, "meta").Undefined?)
    ensures s.Continue? ==> s.json == json
    ensures json.Null? || json.Undefined? ==> s == Finish(Threw("TypeError"))
    ensures !json.Null? && !json.Undefined? && s.Finish? ==> s == Finish(Returned(json))
  {
    if json.Null? || json.Undefined? then Finish(Threw("TypeError"))
    else if Get(json, "data").Undefined? && Get(json, "errors").Undefined? && Get(json, "meta").Undefined? then
      Finish(Returned(json))
    else if Marked(json) then Finish(Returned(json))
    else Continue(json)
  }

  /** Everything `jsonapi.parse` decides before deserializing. */
  function Entry(response: Value, parseText: string -> JsonText): Step {
    match Classify(response, parseText)
    case Finish(o) => Finish(o)
    case Continue(json) => Screen(json)
  }

  /** `deserialize`: array data becomes an array of flattened records in the
      same order with the same ids, a single resource one flattened record,
      anything else `undefined`; `meta` and `errors` pass through when truthy. */
  function Deserialize(json: Value, doc: Doc): (r: Result<Value>)
    ensures r.Ok? ==> r.value.Obj? && "data" in r.value.members && r.value == Assemble(json, r.value.members["data"])
    ensures doc.data.Collection? && r.Ok? ==>
      var d := r.value.members["data"];
      && d.Arr? && |d.items| == |doc.data.records|
      && forall i :: 0 <= i < |d.items| ==> d.items[i].Obj? && "id" in d.items[i].members && d.items[i].members["id"] == Str(doc.data.records[i].id)
    ensures doc.data.Single? && r.Ok? ==>
      var d := r.value.members["data"];
      d.Obj? && "id" in d.members && d.members["id"] == Str(doc.data.record.id)
    ensures doc.data.Neither? ==> r.Ok? && r.value.members["data"] == Undefined
    ensures doc.data.Collection? ==>
      var e := ExpandEach(doc.data.records, LastWins(BuildIndex(doc.included)));
      && (r.Ok? <==> e.Ok?)
      && (r.Ok? ==> r.value.members["data"] == Arr(e.value))
    ensures doc.data.Single? ==>
      var e := Expand(doc.data.record, LastWins(BuildIndex(doc.included)), []);
      && (r.Ok? <==> e.Ok?)
      && (r.Ok? ==> r.value.members["data"] == e.value)
  {
    var pool := LastWins(BuildIndex(doc.included));
    match doc.data
    case Collection(rs) =>
      (match ExpandEach(rs, pool)
       case Ok(vs) => Ok(Assemble(json, Arr(vs)))
       case TypeErr => TypeErr)
    case Single(rec) =>
      (match Expand(rec, pool, [])
       case Ok(v) => Ok(Assemble(json, v))
       case TypeErr => TypeErr)
    case Neither => Ok(Assemble(json, Undefined))
  }

  /** Every resource of the document carries an `attributes` object. */
  predicate FullyAttributed(doc: Doc) {
    && (forall i :: 0 <= i < |doc.included| ==> doc.included[i].attributes.Some?)
    && (doc.data.Collection? ==> forall i :: 0 <= i < |doc.data.records| ==> doc.data.records[i].attributes.Some?)
    && (doc.data.Single? ==> doc.data.record.attributes.Some?)
  }

  /** The JSON value `jsonapi.parse` works on: the input object, or what
      its text parses to. */
  function Subject(response: Value, parseText: string -> JsonText): Option<Value> {
    match Classify(response, parseText)
    case Continue(json) => Some(json)
    case Finish(_) => None
  }

  /** Documents the model covers once they reach deserialization. */
  predicate Covered(response: Value, parseText: string -> JsonText) {
    Entry(response, parseText).Continue? ==> DecodeDoc(Entry(response, parseText).json).Some?
  }

  /** `jsonapi.parse`. */
  function Parse(response: Value, parseText: string -> JsonText): (o: Outcome)
    requires Covered(response, parseText)
    ensures !response.Str? && !response.Obj? && !response.Instance? ==> o == Returned(response)
    ensures response.Str? && parseText(response.s) == Raised("SyntaxError") ==> o == Returned(response)
    ensures response.Str? && parseText(response.s).Raised? && parseText(response.s).name != "SyntaxError" ==>
      o == Threw(parseText(response.s).name)
    ensures Subject(response, parseText).Some? ==>
      var json := Subject(response, parseText).value;
      && (json.Null? ==> o == Threw("TypeError"))
      && (!json.Null? && !json.Undefined? && Get(json, "data").Undefined? && Get(json, "errors").Undefined? && Get(json, "meta").Undefined? ==>
          o == Returned(json))
      && (!json.Null? && !json.Undefined? && Marked(json) ==> o == Returned(json))
    ensures Entry(response, parseText).Continue? ==>
      var json := Entry(response, parseText).json;
      && (o.Returned? ==> o.value.Obj? && (Marked(o.value) <==> Stampable(json)))
      && (o.Returned? ==> o.value.members.Keys <= {"data", "jsonapi", "meta", "errors"})
      && (o.Threw? ==> o.name == "TypeError")
    ensures Entry(response, parseText).Continue? ==>
      var json := Entry(response, parseText).json;
      var d := Deserialize(json, DecodeDoc(json).value);
      && (d.Ok? ==> o == Returned(Stamp(d.value)))
      && (d.TypeErr? ==> o == Threw("TypeError"))
  {
    match Entry(response, parseText)
    case Finish(o) => o
    case Continue(json) =>
      match Deserialize(json, DecodeDoc(json).value)
      case Ok(d) =>
        StampMarks(json, d.members["data"]);
        Returned(Stamp(d))
      case TypeErr => Threw("TypeError")
  }

  /** Parsing the result of a call returns it unchanged, so
      `parse(parse(x))` equals `parse(x)` — except for text whose JSON is
      itself a string (parsed once more) and for a truthy primitive
      `jsonapi` (which cannot carry the marker). */
  lemma ParseIdempotent(response: Value, parseText: string -> JsonText)
    requires Covered(response, parseText)
    requires Parse(response, parseText).Returned?
    requires response.Str? && parseText(response.s).Parsed? ==> !parseText(response.s).value.Str?
    requires Entry(response, parseText).Continue? ==> Stampable(Entry(response, parseText).json)
    ensures Entry(Parse(response, parseText).value, parseText).Finish?
    ensures Parse(Parse(response, parseText).value, parseText) == Parse(response, parseText)
  {
    var w := Parse(response, parseText).value;
    match Entry(response, parseText)
    case Finish(o) =>
      if response.Str? && parseText(response.s).Parsed? {
        var json := parseText(response.s).value;
        assert w == json;
        assert Classify(w, parseText) == (if w.Obj? || w.Instance? then Continue(w) else Finish(Returned(w)));
      }
    case Continue(json) =>
      assert w.Obj? && Marked(w);
  }


  /** `jsonapi.parse` throws only for a document in which a resource
      without `attributes` has a linked relationship: with `attributes`
      everywhere it returns, however relationships nest or cycle. */
  lemma ParseNeverThrows(response: Value, parseText: string -> JsonText)
    requires Covered(response, parseText) && Entry(response, parseText).Continue?
    requires FullyAttributed(DecodeDoc(Entry(response, parseText).json).value)
    ensures Parse(response, parseText).Returned?
  {
    var doc := DecodeDoc(Entry(response, parseText).json).value;
    Failures.PoolsAttributed(doc.included);
    var pool := LastWins(BuildIndex(doc.included));
    match doc.data
    case Collection(rs) => Failures.ExpandEachSucceeds(rs, pool);
    case Single(rec) => Failures.ExpandSucceeds(rec, pool, []);
    case Neither =>
  }

}

=== FILE: documents.dfy ===
/** The top-level document handling that dist/jsonapi.js and
    src/json-api.js share: the outcome of `jsonapi.parse`, the idempotence
    marker `jsonapi.parsed`, and the assembly of the result object. */
module Documents {
  import opened Json

  /** What `jsonapi.parse` does: return a value, or throw an error with the
      given name. */
  datatype Outcome = Returned(value: Value) | Threw(name: string)

  /** Where `jsonapi.parse` stands after looking at its input: finished, or
      holding the object it is about to deserialize. */
  datatype Step = Finish(outcome: Outcome) | Continue(json: Value)

  /** `json.jsonapi && json.jsonapi.parsed`: the input was produced by an
      earlier call. */
  predicate Marked(json: Value)
    ensures Marked(json) ==> json.Obj? || json.Instance?
    ensures Marked(json) ==> Get(json, "jsonapi").Obj? || Get(json, "jsonapi").Instance?
  {
    Truthy(Get(json, "jsonapi")) && Truthy(Get(Get(json, "jsonapi"), "parsed"))
  }

  /** The `jsonapi` member can carry the marker: it is an object, or falsy
      (and then replaced by a new object). A truthy primitive silently drops
      the assignment of `parsed`. */
  predicate Stampable(json: Value) {
    var j := Get(json, "jsonapi");
    !Truthy(j) || j.Obj? || j.Instance?
  }

  /** `json.jsonapi || {}`. */
  function JsonApiOf(json: Value): (j: Value)
    ensures Truthy(j)
    ensures Truthy(Get(json, "jsonapi")) ==> j == Get(json, "jsonapi")
    ensures !Truthy(Get(json, "jsonapi")) ==> j == Obj(map[])
  {
    if Truthy(Get(json, "jsonapi")) then Get(json, "jsonapi") else Obj(map[])
  }

  /** The object `deserialize` returns: `data`, `jsonapi`, and `meta` and
      `errors` only when they are truthy. */
  function Assemble(json: Value, data: Value): (r: Value)
    ensures r.Obj? && r.members.Keys <= {"data", "jsonapi", "meta", "errors"}
    ensures "data" in r.members && r.members["data"] == data
    ensures "jsonapi" in r.members && r.members["jsonapi"] == JsonApiOf(json)
    ensures "meta" in r.members <==> Truthy(Get(json, "meta"))
    ensures "meta" in r.members ==> r.members["meta"] == Get(json, "meta")
    ensures "errors" in r.members <==> Truthy(Get(json, "errors"))
    ensures "errors" in r.members ==> r.members["errors"] == Get(json, "errors")
  {
    var meta, errors := Get(json, "meta"), Get(json, "errors");
    Obj(map["data" := data, "jsonapi" := JsonApiOf(json)]
      + (if Truthy(meta) then map["meta" := meta] else map[])
      + (if Truthy(errors) then map["errors" := errors] else map[]))
  }

  /** `jsonapi.parsed = true`: sets the member on an object; assigning a
      property of a primitive is silently ignored (the source is not in
      strict mode). */
  function SetParsed(j: Value): (r: Value)
    ensures j.Obj? || j.Instance? ==> Truthy(Get(r, "parsed"))
    ensures j.Obj? || j.Instance? ==> r.members["parsed"] == Bool(true)
    ensures j.Obj? || j.Instance? ==> r.Obj? == j.Obj? && r.Instance? == j.Instance?
    ensures j.Obj? || j.Instance? ==> r.members.Keys == j.members.Keys + {"parsed"}
    ensures j.Obj? || j.Instance? ==> forall k :: k in j.members && k != "parsed" ==> r.members[k] == j.members[k]
    ensures !j.Obj? && !j.Instance? ==> r == j
  {
    match j
    case Obj(m) => Obj(m["parsed" := Bool(true)])
    case Instance(m) => Instance(m["parsed" := Bool(true)])
    case _ => j
  }

  /** `parsed.jsonapi.parsed = true` on the assembled result. */
  function Stamp(d: Value): (r: Value)
    requires d.Obj? && "jsonapi" in d.members
    ensures r.Obj? && r.members.Keys == d.members.Keys
    ensures forall k :: k in d.members && k != "jsonapi" ==> r.members[k] == d.members[k]
    ensures r.members["jsonapi"] == SetParsed(d.members["jsonapi"])
  {
    Obj(d.members["jsonapi" := SetParsed(d.members["jsonapi"])])
  }

  /** The stamped result of deserializing `json` carries the marker exactly
      when the input's `jsonapi` member could take it, and keeps every other
      member of that `jsonapi` object. */
  lemma StampMarks(json: Value, data: Value)
    ensures Marked(Stamp(Assemble(json, data))) <==> Stampable(json)
    ensures var j := Get(json, "jsonapi"); var out := Get(Stamp(Assemble(json, data)), "jsonapi");
      (j.Obj? || j.Instance?) ==> forall k :: k in j.members && k != "parsed" ==> Get(out, k) == j.members[k]
  {
    var out := Get(Stamp(Assemble(json, data)), "jsonapi");
    assert out == SetParsed(JsonApiOf(json));
  }

}

=== FILE: engine.dfy ===
/** The deserialization engine shared by dist/jsonapi.js and src/json-api.js:
    relationship population (`populateRelatedFields`), identifier resolution
    with the ancestor-chain cycle guard (`getMatchingRecord`) and flattening
    (`flatten`). The two files differ here only in how the included pool is
    searched, which `Lookup.Pool` captures.

    The source writes each inlined relationship into `record.attributes`
    and then copies the attributes into a new object; every inlined value it
    copies has been written during the same call (earlier writes to the same
    record are overwritten, since each population writes the same set of
    properties), so the model builds the new record directly. */
module Engine {
  import opened Wrappers
  import opened Json
  import opened Resources
  import opened Lookup

  /** The outcome of a step that can throw. The only error the engine can
      raise is the TypeError of writing into `attributes` when that member is
      `undefined` or `null`. */
  datatype Result<+T> = Ok(value: T) | TypeErr

  /** The keys of the records on an ancestor chain. */
  ghost function ChainKeys(chain: seq<Resource>): set<Key> {
    set a | a in chain :: a.Identity()
  }

  lemma ChainKeysSnoc(chain: seq<Resource>, rec: Resource)
    ensures ChainKeys(chain + [rec]) == ChainKeys(chain) + {rec.Identity()}
  {
    assert forall a :: a in chain + [rec] <==> a in chain || a == rec;
  }

  /** The cycle guard: some ancestor has the identifier's `id` and `type`. */
  predicate OnChain(x: Ident, chain: seq<Resource>)
    ensures OnChain(x, chain) <==> x.Identity() in ChainKeys(chain)
  {
    exists a :: a in chain && a.id == x.id && a.typ == x.typ
  }

  /** Expanding a pool resource whose key is not yet on the chain leaves
      fewer pool keys unvisited: the measure of the recursion. */
  lemma FreshShrinks(pool: Pool, chain: seq<Resource>, m: Resource)
    requires m.Identity() in pool.Keys() && m.Identity() !in ChainKeys(chain)
    ensures |pool.Keys() - ChainKeys(chain + [m])| < |pool.Keys() - ChainKeys(chain)|
  {
    ChainKeysSnoc(chain, m);
    var unvisited := pool.Keys() - ChainKeys(chain);
    assert pool.Keys() - ChainKeys(chain + [m]) == unvisited - {m.Identity()};
  }

  /** The attributes of a record, empty when the member is absent. */
  function AttributesOf(rec: Resource): map<string, Value> {
    rec.attributes.GetOr(map[])
  }

  /** `flatten`: a new object with `links`, then every attribute, then
      `id`, each later member overriding an earlier one of the same name. */
  function Flatten(rec: Resource): (v: Value)
    ensures v.Obj?
    ensures v.members.Keys == {"links", "id"} + AttributesOf(rec).Keys
    ensures v.members["id"] == Str(rec.id)
    ensures forall k :: k in AttributesOf(rec) && k != "id" ==> v.members[k] == AttributesOf(rec)[k]
    ensures "links" !in AttributesOf(rec) ==> v.members["links"] == rec.links
  {
    Obj(map["links" := rec.links] + AttributesOf(rec) + map["id" := Str(rec.id)])
  }

  /** The assignments `record.attributes[property] = value` of one
      population: they throw when there is something to write and the
      record has no attributes object. */
  function WriteBack(rec: Resource, written: map<string, Value>): (r: Result<Resource>)
    ensures r.TypeErr? <==> written != map[] && rec.attributes.None?
    ensures r.Ok? ==> r.value.id == rec.id && r.value.links == rec.links
    ensures r.Ok? ==> AttributesOf(r.value).Keys == AttributesOf(rec).Keys + written.Keys
    ensures r.Ok? ==> forall k :: k in written ==> AttributesOf(r.value)[k] == written[k]
    ensures r.Ok? ==> forall k :: k in AttributesOf(rec) && k !in written ==> AttributesOf(r.value)[k] == AttributesOf(rec)[k]
  {
    if written == map[] then Ok(rec)
    else
      match rec.attributes
      case None => TypeErr
      case Some(a) => Ok(rec.(attributes := Some(a + written)))
  }

  /** `getMatchingRecord`: an identifier whose key is on the ancestor chain,
      or is not in the pool, comes back as the identifier object itself;
      otherwise the matching pool resource is populated against the same
      chain and flattened. Either way the value carries the identifier's id. */
  function Resolve(x: Ident, pool: Pool, chain: seq<Resource>): (r: Result<Value>)
    requires pool.Valid()
    ensures OnChain(x, chain) || pool.Find(x.Identity()).None? ==> r == Ok(x.AsValue())
    ensures r.Ok? ==> r.value.Obj? && "id" in r.value.members && r.value.members["id"] == Str(x.id)
    decreases |pool.Keys() - ChainKeys(chain)|, 0
  {
    if OnChain(x, chain) then Ok(x.AsValue())
    else
      match pool.Find(x.Identity())
      case None => Ok(x.AsValue())
      case Some(m) =>
        FreshShrinks(pool, chain, m);
        Expand(m, pool, chain)
  }

  /** The other case of `getMatchingRecord`: an identifier that is not on
      the chain and has a match in the pool becomes the match, populated
      against the same chain and flattened; so it carries every attribute of
      the match that no relationship replaces, and every inlined relationship
      of the match. */
  lemma ResolveInlinesMatch(x: Ident, pool: Pool, chain: seq<Resource>)
    requires pool.Valid() && !OnChain(x, chain) && pool.Find(x.Identity()).Some?
    ensures Resolve(x, pool, chain) == Expand(pool.Find(x.Identity()).value, pool, chain)
    ensures var m, r := pool.Find(x.Identity()).value, Resolve(x, pool, chain);
      r.Ok? ==> forall k :: k in AttributesOf(m) && k != "id" && k !in Inline(m, pool, chain).value ==>
        k in r.value.members && r.value.members[k] == AttributesOf(m)[k]
    ensures var m, r := pool.Find(x.Identity()).value, Resolve(x, pool, chain);
      r.Ok? ==> forall k :: k in Inline(m, pool, chain).value && k != "id" ==>
        k in r.value.members && r.value.members[k] == Inline(m, pool, chain).value[k]
  {
  }

  /** `map(data, getMatchingRecord)` over an array of identifiers. */
  function ResolveAll(xs: seq<Ident>, pool: Pool, chain: seq<Resource>): (r: Result<seq<Value>>)
    requires pool.Valid()
    ensures r.Ok? <==> forall i :: 0 <= i < |xs| ==> Resolve(xs[i], pool, chain).Ok?
    ensures r.Ok? ==> |r.value| == |xs|
    ensures r.Ok? ==> forall i :: 0 <= i < |xs| ==> Resolve(xs[i], pool, chain) == Ok(r.value[i])
    ensures r.Ok? ==> forall i :: 0 <= i < |xs| ==>
      r.value[i].Obj? && "id" in r.value[i].members && r.value[i].members["id"] == Str(xs[i].id)
    decreases |pool.Keys() - ChainKeys(chain)|, 1
  {
    if forall i :: 0 <= i < |xs| ==> Resolve(xs[i], pool, chain).Ok? then
      Ok(seq(|xs|, i requires 0 <= i < |xs| => Resolve(xs[i], pool, chain).value))
    else
      TypeErr
  }

  /** The value written for one relationship whose `data` is truthy: an
      array of identifiers gives an array, a single identifier one value. */
  function ResolveData(d: RelData, pool: Pool, chain: seq<Resource>): (r: Result<Value>)
    requires pool.Valid() && !d.Absent?
    ensures d.One? ==> r == Resolve(d.target, pool, chain)
    ensures d.Many? ==> (r.Ok? <==> ResolveAll(d.targets, pool, chain).Ok?)
    ensures d.Many? && r.Ok? ==> r.value == Arr(ResolveAll(d.targets, pool, chain).value)
    ensures d.One? && r.Ok? ==> r.value.Obj? && "id" in r.value.members && r.value.members["id"] == Str(d.target.id)
    ensures d.Many? && r.Ok? ==> r.value.Arr? && |r.value.items| == |d.targets|
    ensures d.Many? && r.Ok? ==> forall i :: 0 <= i < |d.targets| ==>
      r.value.items[i].Obj? && "id" in r.value.items[i].members && r.value.items[i].members["id"] == Str(d.targets[i].id)
    decreases |pool.Keys() - ChainKeys(chain)|, 2
  {
    match d
    case One(x) => Resolve(x, pool, chain)
    case Many(xs) =>
      match ResolveAll(xs, pool, chain)
      case Ok(vs) => Ok(Arr(vs))
      case TypeErr => TypeErr
  }

  /** The relationships of `rec` whose `data` is truthy. */
  function Linked(rels: map<string, RelData>): set<string> {
    set p | p in rels && !rels[p].Absent?
  }

  /** `populateRelatedFields`: the values written into `attributes`, one
      per relationship with truthy `data`, each resolved against the
      caller's chain extended with `rec` (the same chain for every sibling). */
  function Inline(rec: Resource, pool: Pool, chain: seq<Resource>): (r: Result<map<string, Value>>)
    requires pool.Valid()
    ensures rec.relationships.None? ==> r == Ok(map[])
    ensures rec.relationships.Some? && r.Ok? ==> r.value.Keys == Linked(rec.relationships.value)
    ensures rec.relationships.Some? && r.Ok? ==>
      forall p :: p in r.value ==> ResolveData(rec.relationships.value[p], pool, chain + [rec]) == Ok(r.value[p])
    ensures rec.relationships.Some? ==>
      (r.Ok? <==> forall p :: p in Linked(rec.relationships.value) ==> ResolveData(rec.relationships.value[p], pool, chain + [rec]).Ok?)
    decreases |pool.Keys() - ChainKeys(chain + [rec])|, 3
  {
    match rec.relationships
    case None => Ok(map[])
    case Some(rels) =>
      Collect(map p | p in Linked(rels) :: ResolveData(rels[p], pool, chain + [rec]))
  }

  /** The values of the successful writes, or the error if one write throws. */
  function Collect(results: map<string, Result<Value>>): (r: Result<map<string, Value>>)
    ensures r.Ok? <==> forall p :: p in results ==> results[p].Ok?
    ensures r.Ok? ==> r.value.Keys == results.Keys
    ensures r.Ok? ==> forall p :: p in results ==> results[p] == Ok(r.value[p])
  {
    if exists p :: p in results && results[p].TypeErr? then TypeErr
    else Ok(map p | p in results :: results[p].value)
  }

  /** `populateRelatedFields` followed by `flatten`: the flattened record,
      whose `id` is the record's, with every attribute that no inlined
      relationship replaces. */
  function Expand(rec: Resource, pool: Pool, chain: seq<Resource>): (r: Result<Value>)
    requires pool.Valid()
    ensures r.Ok? ==> r.value.Obj? && "id" in r.value.members && r.value.members["id"] == Str(rec.id)
    ensures r.Ok? ==> Inline(rec, pool, chain).Ok?
    ensures r.Ok? ==> forall k :: k in AttributesOf(rec) && k != "id" && k !in Inline(rec, pool, chain).value ==>
      k in r.value.members && r.value.members[k] == AttributesOf(rec)[k]
    ensures r.Ok? ==> forall k :: k in Inline(rec, pool, chain).value && k != "id" ==>
      k in r.value.members && r.value.members[k] == Inline(rec, pool, chain).value[k]
    ensures r.Ok? ==> r.value.members.Keys == {"links", "id"} + AttributesOf(rec).Keys + Inline(rec, pool, chain).value.Keys
    ensures r.Ok? && "links" !in AttributesOf(rec) && "links" !in Inline(rec, pool, chain).value ==>
      r.value.members["links"] == rec.links
    ensures Inline(rec, pool, chain).Ok? && rec.attributes.Some? ==> r.Ok?
    ensures Inline(rec, pool, chain).Ok? && Inline(rec, pool, chain).value == map[] ==> r.Ok?
    ensures Inline(rec, pool, chain).Ok? && Inline(rec, pool, chain).value != map[] && rec.attributes.None? ==> r.TypeErr?
    decreases |pool.Keys() - ChainKeys(chain + [rec])|, 4
  {
    match Inline(rec, pool, chain)
    case TypeErr => TypeErr
    case Ok(written) =>
      match WriteBack(rec, written)
      case TypeErr => TypeErr
      case Ok(populated) => Ok(Flatten(populated))
  }

  /** `map(json.data, ...)` in dist/jsonapi.js and `_.map(json.data, ...)` in
      src/json-api.js over an array of resources: each is populated with an
      empty chain and flattened, in order. */
  function ExpandEach(rs: seq<Resource>, pool: Pool): (r: Result<seq<Value>>)
    requires pool.Valid()
    ensures r.Ok? <==> forall i :: 0 <= i < |rs| ==> Expand(rs[i], pool, []).Ok?
    ensures r.Ok? ==> |r.value| == |rs|
    ensures r.Ok? ==> forall i :: 0 <= i < |rs| ==> Expand(rs[i], pool, []) == Ok(r.value[i])
    ensures r.Ok? ==> forall i :: 0 <= i < |rs| ==> r.value[i].Obj? && "id" in r.value[i].members && r.value[i].members["id"] == Str(rs[i].id)
  {
    if forall i :: 0 <= i < |rs| ==> Expand(rs[i], pool, []).Ok? then
      Ok(seq(|rs|, i requires 0 <= i < |rs| => Expand(rs[i], pool, []).value))
    else
      TypeErr
  }

}

=== FILE: failures.dfy ===
/** When deserialization throws. The only error the engine raises is the
    TypeError of writing an inlined relationship into a record whose
    `attributes` member is missing, so a document whose resources all carry
    `attributes` deserializes without error, however its relationships
    nest or cycle. */
module Failures {
  import opened Wrappers
  import opened Json
  import opened Resources
  import opened Lookup
  import opened Engine

  /** Every resource the pool can find carries an `attributes` object. */
  ghost predicate Attributed(pool: Pool)
    requires pool.Valid()
  {
    forall k :: pool.Find(k).Some? ==> pool.Find(k).value.attributes.Some?
  }

  lemma {:induction false} ResolveSucceeds(x: Ident, pool: Pool, chain: seq<Resource>)
    requires pool.Valid() && Attributed(pool)
    ensures Resolve(x, pool, chain).Ok?
    decreases |pool.Keys() - ChainKeys(chain)|, 0
  {
    if !OnChain(x, chain) && pool.Find(x.Identity()).Some? {
      var m := pool.Find(x.Identity()).value;
      FreshShrinks(pool, chain, m);
      ExpandSucceeds(m, pool, chain);
    }
  }

  lemma {:induction false} ResolveAllSucceeds(xs: seq<Ident>, pool: Pool, chain: seq<Resource>)
    requires pool.Valid() && Attributed(pool)
    ensures ResolveAll(xs, pool, chain).Ok?
    decreases |pool.Keys() - ChainKeys(chain)|, 1
  {
    forall i | 0 <= i < |xs| ensures Resolve(xs[i], pool, chain).Ok? {
      ResolveSucceeds(xs[i], pool, chain);
    }
  }

  lemma {:induction false} ResolveDataSucceeds(d: RelData, pool: Pool, chain: seq<Resource>)
    requires pool.Valid() && Attributed(pool) && !d.Absent?
    ensures ResolveData(d, pool, chain).Ok?
    decreases |pool.Keys() - ChainKeys(chain)|, 2
  {
    match d
    case One(x) => ResolveSucceeds(x, pool, chain);
    case Many(xs) => ResolveAllSucceeds(xs, pool, chain);
  }

  lemma {:induction false} InlineSucceeds(rec: Resource, pool: Pool, chain: seq<Resource>)
    requires pool.Valid() && Attributed(pool)
    ensures Inline(rec, pool, chain).Ok?
    decreases |pool.Keys() - ChainKeys(chain + [rec])|, 3
  {
    if rec.relationships.Some? {
      var rels := rec.relationships.value;
      forall p | p in Linked(rels) ensures ResolveData(rels[p], pool, chain + [rec]).Ok? {
        ResolveDataSucceeds(rels[p], pool, chain + [rec]);
      }
    }
  }

  /** A record with `attributes`, expanded against a pool of such records,
      never throws. */
  lemma {:induction false} ExpandSucceeds(rec: Resource, pool: Pool, chain: seq<Resource>)
    requires pool.Valid() && Attributed(pool) && rec.attributes.Some?
    ensures Expand(rec, pool, chain).Ok?
    decreases |pool.Keys() - ChainKeys(chain + [rec])|, 4
  {
    InlineSucceeds(rec, pool, chain);
  }

  /** The converse: a record without `attributes` that has a relationship
      with truthy `data` always throws, whatever the pool holds and even
      when nothing it names is in the pool. */
  lemma ExpandFailsWithoutAttributes(rec: Resource, pool: Pool, chain: seq<Resource>)
    requires pool.Valid()
    requires rec.attributes.None? && rec.relationships.Some? && Linked(rec.relationships.value) != {}
    ensures Expand(rec, pool, chain).TypeErr?
  {
    var p :| p in Linked(rec.relationships.value);
    if Inline(rec, pool, chain).Ok? {
      assert p in Inline(rec, pool, chain).value;
    }
  }

  /** Every record of `data` expands when all resources carry `attributes`. */
  lemma ExpandEachSucceeds(rs: seq<Resource>, pool: Pool)
    requires pool.Valid() && Attributed(pool)
    requires forall i :: 0 <= i < |rs| ==> rs[i].attributes.Some?
    ensures ExpandEach(rs, pool).Ok?
  {
    forall i | 0 <= i < |rs| ensures Expand(rs[i], pool, []).Ok? {
      ExpandSucceeds(rs[i], pool, []);
    }
  }

  /** Both pools built from `included` find only members of `included`. */
  lemma PoolsAttributed(included: seq<Resource>)
    requires forall i :: 0 <= i < |included| ==> included[i].attributes.Some?
    ensures Attributed(LastWins(BuildIndex(included)))
    ensures Attributed(FirstMatch(included))
  {
    forall k | LastWins(BuildIndex(included)).Find(k).Some?
      ensures LastWins(BuildIndex(included)).Find(k).value.attributes.Some?
    {
      var i :| IsLast(included, k, i) && BuildIndex(included)[k] == included[i];
    }
    forall k | FirstMatch(included).Find(k).Some?
      ensures FirstMatch(included).Find(k).value.attributes.Some?
    {
      var i :| IsFirst(included, k, i) && FindFirst(included, k) == Some(included[i]);
    }
  }

}

=== FILE: json.dfy ===
/** JavaScript values as the deserializer sees them, and the few operations
    on them it relies on: truthiness and property reads. */
module Json {

  /** A JavaScript value. Numbers are kept as integers (floating point is not
      modelled). `Obj` is a plain object; `Instance` is an object made by some
      other constructor: `Object.prototype.toString` still reports it as
      `[object Object]`, but lodash's `isPlainObject` rejects it. */
  datatype Value =
    | Undefined
    | Null
    | Bool(b: bool)
    | Num(n: int)
    | Str(s: string)
    | Arr(items: seq<Value>)
    | Obj(members: map<string, Value>)
    | Instance(members: map<string, Value>)

  /** JavaScript truthiness: `undefined`, `null`, `false`, `0` and `""` are falsy. */
  predicate Truthy(v: Value)
    ensures !Truthy(v) <==> v == Undefined || v == Null || v == Bool(false) || v == Num(0) || v == Str("")
  {
    match v
    case Undefined => false
    case Null => false
    case Bool(b) => b
    case Num(n) => n != 0
    case Str(s) => s != ""
    case _ => true
  }

  /** `v[key]` for the member names the deserializer reads (`data`, `meta`,
      `jsonapi`, `parsed`, `id`, ...): none of them exists on a primitive or
      on an array, so only objects can yield something other than `undefined`.
      Reading from `null` or `undefined` throws; callers guard that case. */
  function Get(v: Value, key: string): (r: Value)
    ensures (v.Obj? || v.Instance?) && key in v.members ==> r == v.members[key]
    ensures !(v.Obj? || v.Instance?) || key !in v.members ==> r == Undefined
  {
    match v
    case Obj(m) => if key in m then m[key] else Undefined
    case Instance(m) => if key in m then m[key] else Undefined
    case _ => Undefined
  }

  /** The `length` of a JavaScript string: its count of UTF-16 code units.
      A character outside the Basic Multilingual Plane takes two (a
      surrogate pair); every other character takes one. */
  function Utf16Length(s: string): (n: nat)
    ensures |s| <= n <= 2 * |s|
    ensures n == |s| <==> forall i :: 0 <= i < |s| ==> (s[i] as int) < 0x1_0000
  {
    if s == [] then 0
    else
      assert forall i :: 1 <= i < |s| ==> s[i] == s[1..][i - 1];
      (if (s[0] as int) < 0x1_0000 then 1 else 2) + Utf16Length(s[1..])
  }

  /** The code units of a concatenation are those of its parts. */
  lemma {:induction false} Utf16Append(a: string, b: string)
    ensures Utf16Length(a + b) == Utf16Length(a) + Utf16Length(b)
  {
    if a == [] {
      assert a + b == b;
    } else {
      assert (a + b)[0] == a[0];
      assert (a + b)[1..] == a[1..] + b;
      Utf16Append(a[1..], b);
    }
  }

  /** One character outside the Basic Multilingual Plane is two code units,
      any other character one. */
  lemma Utf16Single(c: char)
    ensures Utf16Length([c]) == (if (c as int) < 0x1_0000 then 1 else 2)
  {
  }

  /** What `JSON.parse` does with a text: it yields a value, or raises an
      error with the given name (`"SyntaxError"` for malformed text). */
  datatype JsonText = Parsed(value: Value) | Raised(name: string)

}

=== FILE: lookup.dfy ===
/** Finding the included resource an identifier refers to. dist/jsonapi.js
    builds an index in which a later entry of `included` overwrites an
    earlier one with the same key; src/json-api.js scans `included` and takes
    the first entry whose `id` and `type` match. */
module Lookup {
  import opened Wrappers
  import opened Resources

  /** The keys present in a sequence of resources. */
  ghost function KeysOf(s: seq<Resource>): set<Key> {
    set r | r in s :: r.Identity()
  }

  /** `s[i]` is the last entry of `s` with key `k`. */
  ghost predicate IsLast(s: seq<Resource>, k: Key, i: int) {
    0 <= i < |s| && s[i].Identity() == k && forall j :: i < j < |s| ==> s[j].Identity() != k
  }

  /** `s[i]` is the first entry of `s` with key `k`. */
  ghost predicate IsFirst(s: seq<Resource>, k: Key, i: int) {
    0 <= i < |s| && s[i].Identity() == k && forall j :: 0 <= j < i ==> s[j].Identity() != k
  }

  /** Two entries with the same key are the same resource object. */
  ghost predicate ConsistentDuplicates(s: seq<Resource>) {
    forall i, j :: 0 <= i < |s| && 0 <= j < |s| && s[i].Identity() == s[j].Identity() ==> s[i] == s[j]
  }

  lemma KeysOfSnoc(s: seq<Resource>, r: Resource)
    ensures KeysOf(s + [r]) == KeysOf(s) + {r.Identity()}
  {
    assert forall x :: x in s + [r] <==> x in s || x == r;
  }

  /** The index of dist/jsonapi.js, keyed by (type, id): entries are stored
      in order, so the last entry with a given key wins. An absent
      `included` gives the empty index. */
  function BuildIndex(s: seq<Resource>): (m: map<Key, Resource>)
    ensures m.Keys == KeysOf(s)
    ensures forall k :: k in m ==> m[k].Identity() == k
    ensures forall k :: k in m ==> exists i :: IsLast(s, k, i) && m[k] == s[i]
  {
    if s == [] then map[]
    else
      var prefix, last := s[..|s| - 1], s[|s| - 1];
      assert s == prefix + [last];
      var m := BuildIndex(prefix);
      KeysOfSnoc(prefix, last);
      LastWinsStep(prefix, last, m);
      m[last.Identity() := last]
  }

  /** The last-wins property survives appending one entry. */
  lemma LastWinsStep(prefix: seq<Resource>, last: Resource, m: map<Key, Resource>)
    requires forall k :: k in m ==> exists i :: IsLast(prefix, k, i) && m[k] == prefix[i]
    ensures var m' := m[last.Identity() := last];
      forall k :: k in m' ==> exists i :: IsLast(prefix + [last], k, i) && m'[k] == (prefix + [last])[i]
  {
    var s := prefix + [last];
    var m' := m[last.Identity() := last];
    forall k | k in m'
      ensures exists i :: IsLast(s, k, i) && m'[k] == s[i]
    {
      if k == last.Identity() {
        assert IsLast(s, k, |prefix|);
      } else {
        var i :| IsLast(prefix, k, i) && m[k] == prefix[i];
        assert IsLast(s, k, i);
      }
    }
  }

  /** The scan of src/json-api.js (lodash `_.findWhere`): the first entry
      whose `id` and `type` equal the key's. */
  function FindFirst(s: seq<Resource>, k: Key): (r: Option<Resource>)
    ensures r.None? <==> k !in KeysOf(s)
    ensures r.Some? ==> exists i :: IsFirst(s, k, i) && r.value == s[i]
  {
    if s == [] then None
    else if s[0].id == k.id && s[0].typ == k.typ then
      assert IsFirst(s, k, 0);
      Some(s[0])
    else
      var r := FindFirst(s[1..], k);
      FirstShift(s, k, r);
      r
  }

  /** A first match in the tail of `s` is a first match in `s` when the
      head does not have the key. */
  lemma FirstShift(s: seq<Resource>, k: Key, r: Option<Resource>)
    requires |s| >= 1 && s[0].Identity() != k
    requires r.None? <==> k !in KeysOf(s[1..])
    requires r.Some? ==> exists i :: IsFirst(s[1..], k, i) && r.value == s[1..][i]
    ensures r.None? <==> k !in KeysOf(s)
    ensures r.Some? ==> exists i :: IsFirst(s, k, i) && r.value == s[i]
  {
    assert s == [s[0]] + s[1..];
    assert KeysOf(s) == {s[0].Identity()} + KeysOf(s[1..]);
    if r.Some? {
      var i :| IsFirst(s[1..], k, i) && r.value == s[1..][i];
      assert IsFirst(s, k, i + 1);
    }
  }

  /** The pool of included resources, with the lookup policy of one of the
      two source files. */
  datatype Pool = LastWins(index: map<Key, Resource>) | FirstMatch(included: seq<Resource>) {

    /** An index only maps a key to a resource with that key. */
    ghost predicate Valid() {
      LastWins? ==> forall k :: k in index ==> index[k].Identity() == k
    }

    /** The keys the lookup can find. */
    ghost function Keys(): set<Key> {
      if LastWins? then index.Keys else KeysOf(included)
    }

    /** The included resource with key `k`, if any. */
    function Find(k: Key): (r: Option<Resource>)
      requires Valid()
      ensures r.Some? ==> r.value.Identity() == k && k in Keys()
      ensures r.None? ==> k !in Keys()
    {
      match this
      case LastWins(m) => if k in m then Some(m[k]) else None
      case FirstMatch(s) => FindFirst(s, k)
    }
  }

  /** When every duplicate key in `included` carries the same resource
      object, the two lookup policies find the same resource. */
  lemma LookupsAgree(s: seq<Resource>, k: Key)
    requires ConsistentDuplicates(s)
    ensures LastWins(BuildIndex(s)).Find(k) == FirstMatch(s).Find(k)
  {
    var m := BuildIndex(s);
    if k in m {
      var i :| IsLast(s, k, i) && m[k] == s[i];
      var r := FindFirst(s, k);
      var j :| IsFirst(s, k, j) && r.value == s[j];
      assert s[i] == s[j];
    }
  }

  /** The key dist/jsonapi.js actually uses: the string `type + '-' + id`. */
  function StringKey(k: Key): string {
    k.typ + "-" + k.id
  }

  /** dist's index as written, keyed by the string key. */
  function BuildStringIndex(s: seq<Resource>): (m: map<string, Resource>)
    ensures m.Keys == set r | r in s :: StringKey(r.Identity())
    ensures forall key :: key in m ==> StringKey(m[key].Identity()) == key
    ensures forall key :: key in m ==> m[key] in s
  {
    if s == [] then map[]
    else
      var prefix, last := s[..|s| - 1], s[|s| - 1];
      assert s == prefix + [last];
      assert forall x :: x in s <==> x in prefix || x == last;
      BuildStringIndex(prefix)[StringKey(last.Identity()) := last]
  }

  /** Looking an identifier up by its string key: whatever is found shares
      the identifier's string key, though not necessarily its (type, id). */
  function FindByString(m: map<string, Resource>, k: Key): (r: Option<Resource>)
    ensures r.None? <==> StringKey(k) !in m
    ensures r.Some? ==> r.value == m[StringKey(k)]
    ensures r.Some? && (forall key :: key in m ==> StringKey(m[key].Identity()) == key) ==>
      StringKey(r.value.Identity()) == StringKey(k)
  {
    if StringKey(k) in m then Some(m[StringKey(k)]) else None
  }

  /** The string key is not injective: the identifier (type "a", id "b-c")
      finds the resource (type "a-b", id "c"), a different resource. */
  lemma StringKeyCollision()
    ensures var r := Resource("a-b", "c", None, None, Json.Undefined);
      && FindByString(BuildStringIndex([r]), Key("a", "b-c")) == Some(r)
      && r.Identity() != Key("a", "b-c")
  {
    var r := Resource("a-b", "c", None, None, Json.Undefined);
    assert StringKey(Key("a", "b-c")) == StringKey(r.Identity());
    assert BuildStringIndex([r]) == map[StringKey(r.Identity()) := r];
  }

  /** No entry of `s` shares its string key with `k` unless it has key `k`. */
  ghost predicate NoCollision(s: seq<Resource>, k: Key) {
    forall i :: 0 <= i < |s| && StringKey(s[i].Identity()) == StringKey(k) ==> s[i].Identity() == k
  }

  /** Where no entry collides with the identifier, the string-keyed index
      of the source and the (type, id)-keyed index of this model find the
      same resource. */
  lemma {:induction false} StringIndexAgrees(s: seq<Resource>, k: Key)
    requires NoCollision(s, k)
    ensures FindByString(BuildStringIndex(s), k) == LastWins(BuildIndex(s)).Find(k)
  {
    if s != [] {
      var prefix, last := s[..|s| - 1], s[|s| - 1];
      assert forall i :: 0 <= i < |prefix| ==> prefix[i] == s[i];
      assert BuildStringIndex(s) == BuildStringIndex(prefix)[StringKey(last.Identity()) := last];
      assert BuildIndex(s) == BuildIndex(prefix)[last.Identity() := last];
      if StringKey(last.Identity()) == StringKey(k) {
        assert last.Identity() == k;
      } else {
        StringIndexAgrees(prefix, k);
      }
    }
  }

  /** When no type contains '-', the string key is injective. */
  lemma DashFreeTypesInjective(a: Key, b: Key)
    requires '-' !in a.typ && '-' !in b.typ
    requires StringKey(a) == StringKey(b)
    ensures a == b
  {
    var s := StringKey(a);
    assert s == StringKey(b);
    assert s[|a.typ|] == '-' && s[|b.typ|] == '-';
    assert forall i :: 0 <= i < |a.typ| ==> s[i] == a.typ[i] != '-';
    assert forall i :: 0 <= i < |b.typ| ==> s[i] == b.typ[i] != '-';
    assert |a.typ| == |b.typ|;
    assert a.typ == s[..|a.typ|] == b.typ;
    assert a.id == s[|a.typ| + 1..] == b.id;
  }

  /** So documents whose types contain no '-' never collide, and dist's
      lookup as written agrees with the pair-keyed one on them. */
  lemma DashFreeNoCollision(s: seq<Resource>, k: Key)
    requires '-' !in k.typ && forall i :: 0 <= i < |s| ==> '-' !in s[i].typ
    ensures NoCollision(s, k)
  {
    forall i | 0 <= i < |s| && StringKey(s[i].Identity()) == StringKey(k)
      ensures s[i].Identity() == k
    {
      DashFreeTypesInjective(s[i].Identity(), k);
    }
  }

}

=== FILE: resources.dfy ===
/** The typed view of a compound document (JSON:API 1.0, "Document
    Structure"): resource objects, resource identifiers and relationships,
    and the decoding of JavaScript values into them. A value whose shape the
    deserializer would treat in some JavaScript-specific way (a numeric `id`,
    an array of relationships, attributes that are a string, ...) does not
    decode; such documents are outside the model. */
module Resources {
  import opened Wrappers
  import opened Json

  /** The identity of a resource: its `type` and its `id`. */
  datatype Key = Key(typ: string, id: string)

  /** A resource identifier object. `typ` is its `type` member; `extra`
      holds every other member besides `type` and `id` (for example `meta`). */
  datatype Ident = Ident(typ: string, id: string, extra: map<string, Value>) {

    function Identity(): Key {
      Key(typ, id)
    }

    /** `extra` does not shadow the identifying members. */
    predicate WellFormed() {
      "id" !in extra && "type" !in extra
    }

    /** The identifier object as it appears in the document. */
    function AsValue(): Value {
      Obj(extra + map["id" := Str(id), "type" := Str(typ)])
    }
  }

  /** The `data` of one relationship: falsy (nothing is inlined), a single
      resource identifier, or an array of them. */
  datatype RelData = Absent | One(target: Ident) | Many(targets: seq<Ident>)

  /** A resource object. `attributes` is `None` when the member is `undefined`
      or `null`; `relationships` is `None` when the member is falsy, and an
      empty map for a truthy member with nothing to iterate. `links` is kept
      as it is (`Undefined` when absent). */
  datatype Resource = Resource(
    typ: string,
    id: string,
    attributes: Option<map<string, Value>>,
    relationships: Option<map<string, RelData>>,
    links: Value)
  {
    function Identity(): Key {
      Key(typ, id)
    }
  }

  /** Decodes every element of `vs` with `decode`, failing if any fails. */
  function DecodeEach<T>(vs: seq<Value>, decode: Value -> Option<T>): (r: Option<seq<T>>)
    ensures r.Some? <==> forall i :: 0 <= i < |vs| ==> decode(vs[i]).Some?
    ensures r.Some? ==> |r.value| == |vs|
    ensures r.Some? ==> forall i :: 0 <= i < |vs| ==> decode(vs[i]) == Some(r.value[i])
  {
    if vs == [] then Some([])
    else
      match (decode(vs[0]), DecodeEach(vs[1..], decode))
      case (Some(x), Some(xs)) =>
        assert forall i :: 1 <= i < |vs| ==> vs[i] == vs[1..][i - 1];
        Some([x] + xs)
      case _ =>
        assert forall i :: 1 <= i < |vs| ==> vs[i] == vs[1..][i - 1];
        None
  }

  /** A resource identifier: a plain object whose `id` and `type` are strings. */
  function DecodeIdent(v: Value): (r: Option<Ident>)
    ensures r.Some? <==> v.Obj? && Get(v, "id").Str? && Get(v, "type").Str?
    ensures r.Some? ==> r.value.WellFormed() && r.value.AsValue() == v
  {
    if v.Obj? && Get(v, "id").Str? && Get(v, "type").Str? then
      var x := Ident(Get(v, "type").s, Get(v, "id").s, v.members - {"id", "type"});
      assert x.AsValue().members == v.members;
      Some(x)
    else
      None
  }

  /** Decoding inverts `AsValue` on well-formed identifiers. */
  lemma DecodeAsValue(x: Ident)
    requires x.WellFormed()
    ensures DecodeIdent(x.AsValue()) == Some(x)
  {
    var v := x.AsValue();
    assert v.members - {"id", "type"} == x.extra;
  }

  /** One member of `relationships`; only its `data` member is used.
      Reading `data` from `undefined` or `null` throws, so those are outside
      the model; any other primitive or an array has no `data` at all. */
  function DecodeRelationship(v: Value): (r: Option<RelData>)
    ensures v.Obj? && !Truthy(Get(v, "data")) ==> r == Some(Absent)
    ensures v.Obj? && r.Some? ==> (r.value.Absent? <==> !Truthy(Get(v, "data")))
    ensures r.Some? && r.value.One? ==> Get(v, "data") == r.value.target.AsValue()
    ensures r.Some? && r.value.Many? ==> Get(v, "data").Arr? && |Get(v, "data").items| == |r.value.targets|
    ensures r.Some? && r.value.Many? ==> forall i :: 0 <= i < |r.value.targets| ==>
      r.value.targets[i].WellFormed() && r.value.targets[i].AsValue() == Get(v, "data").items[i]
  {
    match v
    case Undefined => None
    case Null => None
    case Instance(_) => None
    case Obj(_) =>
      var d := Get(v, "data");
      if !Truthy(d) then Some(Absent)
      else if d.Arr? then
        match DecodeEach(d.items, DecodeIdent)
        case Some(xs) => Some(Many(xs))
        case None => None
      else if d.Obj? then
        match DecodeIdent(d)
        case Some(x) => Some(One(x))
        case None => None
      else None
    case _ => Some(Absent)
  }

  /** The `relationships` member. A falsy member means "no relationships";
      a truthy primitive is still truthy (so the record becomes an ancestor)
      but has no members to iterate. */
  function DecodeRelationships(v: Value): (r: Option<Option<map<string, RelData>>>)
    ensures !Truthy(v) ==> r == Some(None)
    ensures r.Some? && r.value.Some? && v.Obj? ==> r.value.value.Keys == v.members.Keys
    ensures r.Some? && r.value.Some? && v.Obj? ==> forall k :: k in v.members ==> DecodeRelationship(v.members[k]) == Some(r.value.value[k])
    ensures v.Obj? ==> (r.Some? <==> forall k :: k in v.members ==> DecodeRelationship(v.members[k]).Some?)
    ensures Truthy(v) && (v.Bool? || v.Num? || v.Str?) ==> r == Some(Some(map[]))
  {
    if !Truthy(v) then Some(None)
    else
      match v
      case Obj(m) =>
        if forall k :: k in m ==> DecodeRelationship(m[k]).Some? then
          Some(Some(map k | k in m :: DecodeRelationship(m[k]).value))
        else
          None
      case Bool(_) => Some(Some(map[]))
      case Num(_) => Some(Some(map[]))
      case Str(_) => Some(Some(map[]))
      case _ => None
  }

  /** The `attributes` member: an object, or `undefined`/`null` (absent). */
  function DecodeAttributes(v: Value): (r: Option<Option<map<string, Value>>>)
    ensures v.Obj? ==> r == Some(Some(v.members))
    ensures v.Undefined? || v.Null? ==> r == Some(None)
  {
    match v
    case Obj(m) => Some(Some(m))
    case Undefined => Some(None)
    case Null => Some(None)
    case _ => None
  }

  /** A resource object: a plain object with string `id` and `type`. */
  function DecodeResource(v: Value): (r: Option<Resource>)
    ensures r.Some? ==> v.Obj?
    ensures r.Some? ==> Get(v, "id") == Str(r.value.id) && Get(v, "type") == Str(r.value.typ)
    ensures r.Some? ==> Get(v, "links") == r.value.links
    ensures r.Some? ==> DecodeAttributes(Get(v, "attributes")) == Some(r.value.attributes)
    ensures r.Some? ==> DecodeRelationships(Get(v, "relationships")) == Some(r.value.relationships)
    ensures r.Some? <==> && v.Obj? && Get(v, "id").Str? && Get(v, "type").Str?
                         && DecodeAttributes(Get(v, "attributes")).Some?
                         && DecodeRelationships(Get(v, "relationships")).Some?
  {
    if v.Obj? && Get(v, "id").Str? && Get(v, "type").Str? then
      match (DecodeAttributes(Get(v, "attributes")), DecodeRelationships(Get(v, "relationships")))
      case (Some(attributes), Some(relationships)) =>
        Some(Resource(Get(v, "type").s, Get(v, "id").s, attributes, relationships, Get(v, "links")))
      case _ => None
    else
      None
  }

  /** The `included` member: an array of resource objects. Any value that is
      not an array or an object is skipped by the iteration, which leaves the
      pool empty; an object (whose member values would be iterated) is
      outside the model. */
  function DecodeIncluded(v: Value): (r: Option<seq<Resource>>)
    ensures !v.Arr? && !v.Obj? && !v.Instance? ==> r == Some([])
    ensures v.Arr? && r.Some? ==> |r.value| == |v.items|
    ensures v.Arr? && r.Some? ==> forall i :: 0 <= i < |v.items| ==> DecodeResource(v.items[i]) == Some(r.value[i])
    ensures v.Arr? ==> (r.Some? <==> forall i :: 0 <= i < |v.items| ==> DecodeResource(v.items[i]).Some?)
  {
    match v
    case Arr(items) => DecodeEach(items, DecodeResource)
    case Obj(_) => None
    case Instance(_) => None
    case _ => Some([])
  }

  /** Every identifier of the relationship data is well formed. */
  predicate RelWellFormed(d: RelData) {
    match d
    case Absent => true
    case One(x) => x.WellFormed()
    case Many(xs) => forall i :: 0 <= i < |xs| ==> xs[i].WellFormed()
  }

  /** Every relationship of the resource has well-formed identifiers. */
  predicate ResourceWellFormed(rec: Resource) {
    rec.relationships.Some? ==> forall p :: p in rec.relationships.value ==> RelWellFormed(rec.relationships.value[p])
  }

  /** A relationship object for `d`: no `data` for `Absent`, the identifier
      object for `One`, and an array of identifier objects for `Many`. */
  function EncodeRelationship(d: RelData): Value {
    match d
    case Absent => Obj(map[])
    case One(x) => Obj(map["data" := x.AsValue()])
    case Many(xs) => Obj(map["data" := Arr(seq(|xs|, i requires 0 <= i < |xs| => xs[i].AsValue()))])
  }

  /** A resource object for `rec`, with absent `attributes` and
      `relationships` left `undefined`. */
  function EncodeResource(rec: Resource): Value {
    var attributes := if rec.attributes.Some? then Obj(rec.attributes.value) else Undefined;
    var relationships :=
      if rec.relationships.Some? then
        Obj(map p | p in rec.relationships.value :: EncodeRelationship(rec.relationships.value[p]))
      else Undefined;
    Obj(map["type" := Str(rec.typ), "id" := Str(rec.id), "links" := rec.links,
            "attributes" := attributes, "relationships" := relationships])
  }

  /** Round trip: a relationship object built from well-formed data decodes
      to that data, identifiers in order. */
  lemma {:induction false} DecodeEncodeRelationship(d: RelData)
    requires RelWellFormed(d)
    ensures DecodeRelationship(EncodeRelationship(d)) == Some(d)
  {
    match d
    case Absent =>
    case One(x) =>
      DecodeAsValue(x);
    case Many(xs) =>
      var vs := seq(|xs|, i requires 0 <= i < |xs| => xs[i].AsValue());
      forall i | 0 <= i < |xs| ensures DecodeIdent(vs[i]) == Some(xs[i]) {
        DecodeAsValue(xs[i]);
      }
      assert DecodeEach(vs, DecodeIdent).value == xs;
  }

  /** Round trip: a `relationships` object built from well-formed data
      decodes to that data, member by member. */
  lemma {:induction false} DecodeEncodeRelationships(rels: map<string, RelData>)
    requires forall p :: p in rels ==> RelWellFormed(rels[p])
    ensures DecodeRelationships(Obj(map p | p in rels :: EncodeRelationship(rels[p]))) == Some(Some(rels))
  {
    var m := map p | p in rels :: EncodeRelationship(rels[p]);
    forall p | p in m ensures DecodeRelationship(m[p]) == Some(rels[p]) {
      DecodeEncodeRelationship(rels[p]);
    }
    assert (map p | p in m :: DecodeRelationship(m[p]).value) == rels;
  }

  /** Round trip: a resource object built from a well-formed resource
      decodes to that resource, with its attributes, relationships and
      links. */
  lemma {:induction false} DecodeEncodeResource(rec: Resource)
    requires ResourceWellFormed(rec)
    ensures DecodeResource(EncodeResource(rec)) == Some(rec)
  {
    var v := EncodeResource(rec);
    assert Get(v, "id") == Str(rec.id) && Get(v, "type") == Str(rec.typ) && Get(v, "links") == rec.links;
    assert DecodeAttributes(Get(v, "attributes")) == Some(rec.attributes);
    if rec.relationships.Some? {
      DecodeEncodeRelationships(rec.relationships.value);
    }
    assert DecodeRelationships(Get(v, "relationships")) == Some(rec.relationships);
  }

  /** Round trip: an array of resource objects built from well-formed
      resources decodes to those resources, in order. */
  lemma {:induction false} DecodeEncodeIncluded(rs: seq<Resource>)
    requires forall i :: 0 <= i < |rs| ==> ResourceWellFormed(rs[i])
    ensures DecodeIncluded(Arr(seq(|rs|, i requires 0 <= i < |rs| => EncodeResource(rs[i])))) == Some(rs)
  {
    var vs := seq(|rs|, i requires 0 <= i < |rs| => EncodeResource(rs[i]));
    forall i | 0 <= i < |rs| ensures DecodeResource(vs[i]) == Some(rs[i]) {
      DecodeEncodeResource(rs[i]);
    }
    assert DecodeIncluded(Arr(vs)).value == rs;
  }

}

=== FILE: src.dfy ===
/** `jsonapi.parse` and `deserialize` of src/json-api.js, the lodash-based
    version: plain-object test by `_.isPlainObject`, no top-level member
    check, `data` always mapped with `_.map`, and a first-match scan of
    `included`. */
module Src {
  import opened Wrappers
  import opened Json
  import opened Resources
  import opened Lookup
  import opened Engine
  import opened Documents
  import Failures

  /** The `data` member as `_.map` sees it: an array of resources; a string,
      mapped UTF-16 code unit by code unit; or a value with nothing to map
      (`undefined`, `null`, a boolean, a number). */
  datatype Data = Records(records: seq<Resource>) | Chars(count: nat) | Nothing

  /** The members `deserialize` interprets, in typed form. */
  datatype Doc = Doc(data: Data, included: seq<Resource>)

  /** An object `data` (whose member values `_.map` would treat as records)
      is outside the model. */
  function DecodeData(v: Value): (r: Option<Data>)
    ensures v.Undefined? || v.Null? ==> r == Some(Nothing)
    ensures v.Str? ==> r == Some(Chars(Utf16Length(v.s)))
    ensures r.Some? && r.value.Records? ==> v.Arr? && |r.value.records| == |v.items|
    ensures r.Some? && r.value.Records? ==> forall i :: 0 <= i < |v.items| ==> Get(v.items[i], "id") == Str(r.value.records[i].id)
    ensures r.Some? && r.value.Records? ==> forall i :: 0 <= i < |v.items| ==> DecodeResource(v.items[i]) == Some(r.value.records[i])
    ensures v.Arr? ==> (r.Some? <==> forall i :: 0 <= i < |v.items| ==> DecodeResource(v.items[i]).Some?)
  {
    match v
    case Arr(items) =>
      (match DecodeEach(items, DecodeResource)
       case Some(rs) => Some(Records(rs))
       case None => None)
    case Str(s) => Some(Chars(Utf16Length(s)))
    case Obj(_) => None
    case Instance(_) => None
    case _ => Some(Nothing)
  }

  /** The document in typed form, when its resources have the shapes the
      model covers and its `jsonapi` member is not an array. */
  function DecodeDoc(json: Value): Option<Doc> {
    if Get(json, "jsonapi").Arr? then None
    else
      match (DecodeData(Get(json, "data")), DecodeIncluded(Get(json, "included")))
      case (Some(data), Some(included)) => Some(Doc(data, included))
      case _ => None
  }

  /** src/json-api.js, lines 11-29: text is handed to `JSON.parse`, a plain
      object is used as it is, anything else (an instance of a class
      included) is returned. */
  function Classify(response: Value, parseText: string -> JsonText): (s: Step)
    ensures s.Continue? <==> response.Obj? || (response.Str? && parseText(response.s).Parsed?)
    ensures s.Continue? ==> s.json == (if response.Str? then parseText(response.s).value else response)
    ensures response.Str? && parseText(response.s) == Raised("SyntaxError") ==> s == Finish(Returned(response))
    ensures response.Str? && parseText(response.s).Raised? && parseText(response.s).name != "SyntaxError" ==>
      s == Finish(Threw(parseText(response.s).name))
    ensures !response.Str? && !response.Obj? ==> s == Finish(Returned(response))
  {
    match response
    case Str(s) =>
      (match parseText(s)
       case Parsed(json) => Continue(json)
       case Raised(name) => if name == "SyntaxError" then Finish(Returned(response)) else Finish(Threw(name)))
    case Obj(_) => Continue(response)
    case _ => Finish(Returned(response))
  }

  /** src/json-api.js, lines 31-34: reading a member of `null` throws; only
      the marker short-circuits. */
  function Screen(json: Value): (s: Step)
    ensures s.Continue? <==> !json.Null? && !json.Undefined? && !Marked(json)
    ensures s.Continue? ==> s.json == json
    ensures json.Null? || json.Undefined? ==> s == Finish(Threw("TypeError"))
    ensures !json.Null? && !json.Undefined? && s.Finish? ==> s == Finish(Returned(json))
  {
    if json.Null? || json.Undefined? then Finish(Threw("TypeError"))
    else if Marked(json) then Finish(Returned(json))
    else Continue(json)
  }

  /** Everything `jsonapi.parse` decides before deserializing. */
  function Entry(response: Value, parseText: string -> JsonText): Step {
    match Classify(response, parseText)
    case Finish(o) => Finish(o)
    case Continue(json) => Screen(json)
  }

  /** What `flatten` makes of a one-character string: it has no `links`,
      `attributes` or `id`. */
  function CharRecord(): (v: Value)
    ensures v.Obj? && v.members.Keys == {"links", "id"}
    ensures v.members["links"] == Undefined && v.members["id"] == Undefined
    ensures forall rec: Resource :: rec.attributes.None? ==> Flatten(rec).members.Keys == v.members.Keys
  {
    Obj(map["links" := Undefined, "id" := Undefined])
  }

  /** `deserialize`: `data` always becomes an array. Array data gives the
      flattened records in the same order with the same ids; absent or
      other non-iterable data gives `[]`; `meta` and `errors` pass through
      when truthy. */
  function Deserialize(json: Value, doc: Doc): (r: Result<Value>)
    ensures r.Ok? ==> r.value.Obj? && "data" in r.value.members && r.value == Assemble(json, r.value.members["data"])
    ensures r.Ok? ==> r.value.members["data"].Arr?
    ensures doc.data.Records? && r.Ok? ==>
      var d := r.value.members["data"];
      && |d.items| == |doc.data.records|
      && forall i :: 0 <= i < |d.items| ==> d.items[i].Obj? && "id" in d.items[i].members && d.items[i].members["id"] == Str(doc.data.records[i].id)
    ensures doc.data.Chars? ==> r.Ok? && |r.value.members["data"].items| == doc.data.count
    ensures doc.data.Chars? ==> forall i :: 0 <= i < doc.data.count ==> r.value.members["data"].items[i] == CharRecord()
    ensures doc.data.Nothing? ==> r.Ok? && r.value.members["data"] == Arr([])
    ensures doc.data.Records? ==>
      var e := ExpandEach(doc.data.records, FirstMatch(doc.included));
      && (r.Ok? <==> e.Ok?)
      && (r.Ok? ==> r.value.members["data"] == Arr(e.value))
  {
    var pool := FirstMatch(doc.included);
    match doc.data
    case Records(rs) =>
      (match ExpandEach(rs, pool)
       case Ok(vs) => Ok(Assemble(json, Arr(vs)))
       case TypeErr => TypeErr)
    case Chars(n) => Ok(Assemble(json, Arr(seq(n, _ => CharRecord()))))
    case Nothing => Ok(Assemble(json, Arr([])))
  }

  /** Every resource of the document carries an `attributes` object. */
  predicate FullyAttributed(doc: Doc) {
    && (forall i :: 0 <= i < |doc.included| ==> doc.included[i].attributes.Some?)
    && (doc.data.Records? ==> forall i :: 0 <= i < |doc.data.records| ==> doc.data.records[i].attributes.Some?)
  }

  /** The JSON value `jsonapi.parse` works on: the input object, or what
      its text parses to. */
  function Subject(response: Value, parseText: string -> JsonText): Option<Value> {
    match Classify(response, parseText)
    case Continue(json) => Some(json)
    case Finish(_) => None
  }

  /** Documents the model covers once they reach deserialization. */
  predicate Covered(response: Value, parseText: string -> JsonText) {
    Entry(response, parseText).Continue? ==> DecodeDoc(Entry(response, parseText).json).Some?
  }

  /** `jsonapi.parse`. */
  function Parse(response: Value, parseText: string -> JsonText): (o: Outcome)
    requires Covered(response, parseText)
    ensures !response.Str? && !response.Obj? ==> o == Returned(response)
    ensures response.Str? && parseText(response.s) == Raised("SyntaxError") ==> o == Returned(response)
    ensures response.Str? && parseText(response.s).Raised? && parseText(response.s).name != "SyntaxError" ==>
      o == Threw(parseText(response.s).name)
    ensures Subject(response, parseText).Some? ==>
      var json := Subject(response, parseText).value;
      && (json.Null? ==> o == Threw("TypeError"))
      && (!json.Null? && !json.Undefined? && Marked(json) ==> o == Returned(json))
    ensures Subject(response, parseText).Some? ==>
      var json := Subject(response, parseText).value;
      !json.Null? && !json.Undefined? && !Marked(json) ==>
      && (o.Returned? ==> o.value.Obj? && (Marked(o.value) <==> Stampable(json)))
      && (o.Returned? ==> "data" in o.value.members && o.value.members["data"].Arr?)
      && (o.Threw? ==> o.name == "TypeError")
    ensures Entry(response, parseText).Continue? ==>
      var json := Entry(response, parseText).json;
      var d := Deserialize(json, DecodeDoc(json).value);
      && (d.Ok? ==> o == Returned(Stamp(d.value)))
      && (d.TypeErr? ==> o == Threw("TypeError"))
  {
    match Entry(response, parseText)
    case Finish(o) => o
    case Continue(json) =>
      match Deserialize(json, DecodeDoc(json).value)
      case Ok(d) =>
        StampMarks(json, d.members["data"]);
        Returned(Stamp(d))
      case TypeErr => Threw("TypeError")
  }

  /** Parsing the result of a call returns it unchanged, so
      `parse(parse(x))` equals `parse(x)` — except for a truthy primitive
      `jsonapi` (which cannot carry the marker). */
  lemma ParseIdempotent(response: Value, parseText: string -> JsonText)
    requires Covered(response, parseText)
    requires Parse(response, parseText).Returned?
    requires Entry(response, parseText).Continue? ==> Stampable(Entry(response, parseText).json)
    ensures Entry(Parse(response, parseText).value, parseText).Finish?
    ensures Parse(Parse(response, parseText).value, parseText) == Parse(response, parseText)
  {
    var w := Parse(response, parseText).value;
    match Entry(response, parseText)
    case Finish(o) =>
      if response.Str? && parseText(response.s).Parsed? {
        var json := parseText(response.s).value;
        assert w == json;
        assert Classify(w, parseText) == (if w.Obj? then Continue(w) else Finish(Returned(w)));
      }
    case Continue(json) =>
      assert w.Obj? && Marked(w);
  }


  /** `jsonapi.parse` throws only for a document in which a resource
      without `attributes` has a linked relationship: with `attributes`
      everywhere it returns, however relationships nest or cycle. */
  lemma ParseNeverThrows(response: Value, parseText: string -> JsonText)
    requires Covered(response, parseText) && Entry(response, parseText).Continue?
    requires FullyAttributed(DecodeDoc(Entry(response, parseText).json).value)
    ensures Parse(response, parseText).Returned?
  {
    var doc := DecodeDoc(Entry(response, parseText).json).value;
    Failures.PoolsAttributed(doc.included);
    if doc.data.Records? {
      Failures.ExpandEachSucceeds(doc.data.records, FirstMatch(doc.included));
    }
  }

}

=== FILE: variants.dfy ===
/** How the two versions of the deserializer relate. The engine only
    consults the pool through `Find`, so pools that find the same resources
    expand every record identically; with duplicate keys carrying identical
    resources, dist's last-wins index and src's first-match scan are such
    pools, and the two `jsonapi.parse` functions agree on plain-object
    documents whose `data` is an array. */
module Variants {
  import opened Wrappers
  import opened Json
  import opened Resources
  import opened Lookup
  import opened Engine
  import opened Documents
  import Dist
  import Src

  /** The two pools find the same resource under every key. */
  ghost predicate SameFinds(p1: Pool, p2: Pool)
    requires p1.Valid() && p2.Valid()
  {
    forall k :: p1.Find(k) == p2.Find(k)
  }

  lemma {:induction false} ResolveAgrees(x: Ident, p1: Pool, p2: Pool, chain: seq<Resource>)
    requires p1.Valid() && p2.Valid() && SameFinds(p1, p2)
    ensures Resolve(x, p1, chain) == Resolve(x, p2, chain)
    decreases |p1.Keys() - ChainKeys(chain)|, 0
  {
    if !OnChain(x, chain) && p1.Find(x.Identity()).Some? {
      var m := p1.Find(x.Identity()).value;
      assert p2.Find(x.Identity()) == Some(m);
      FreshShrinks(p1, chain, m);
      ExpandAgrees(m, p1, p2, chain);
    }
  }

  lemma {:induction false} ResolveAllAgrees(xs: seq<Ident>, p1: Pool, p2: Pool, chain: seq<Resource>)
    requires p1.Valid() && p2.Valid() && SameFinds(p1, p2)
    ensures ResolveAll(xs, p1, chain) == ResolveAll(xs, p2, chain)
    decreases |p1.Keys() - ChainKeys(chain)|, 1
  {
    forall i | 0 <= i < |xs| ensures Resolve(xs[i], p1, chain) == Resolve(xs[i], p2, chain) {
      ResolveAgrees(xs[i], p1, p2, chain);
    }
    var r1, r2 := ResolveAll(xs, p1, chain), ResolveAll(xs, p2, chain);
    if r1.Ok? {
      assert r1.value == r2.value;
    }
  }

  lemma {:induction false} ResolveDataAgrees(d: RelData, p1: Pool, p2: Pool, chain: seq<Resource>)
    requires p1.Valid() && p2.Valid() && SameFinds(p1, p2) && !d.Absent?
    ensures ResolveData(d, p1, chain) == ResolveData(d, p2, chain)
    decreases |p1.Keys() - ChainKeys(chain)|, 2
  {
    match d
    case One(x) => ResolveAgrees(x, p1, p2, chain);
    case Many(xs) => ResolveAllAgrees(xs, p1, p2, chain);
  }

  lemma {:induction false} InlineAgrees(rec: Resource, p1: Pool, p2: Pool, chain: seq<Resource>)
    requires p1.Valid() && p2.Valid() && SameFinds(p1, p2)
    ensures Inline(rec, p1, chain) == Inline(rec, p2, chain)
    decreases |p1.Keys() - ChainKeys(chain + [rec])|, 3
  {
    if rec.relationships.Some? {
      var rels := rec.relationships.value;
      forall p | p in Linked(rels)
        ensures ResolveData(rels[p], p1, chain + [rec]) == ResolveData(rels[p], p2, chain + [rec])
      {
        ResolveDataAgrees(rels[p], p1, p2, chain + [rec]);
      }
      InlineFromParts(rec, p1, p2, chain);
    }
  }

  /** `Inline` is determined by the values its relationships resolve to. */
  lemma InlineFromParts(rec: Resource, p1: Pool, p2: Pool, chain: seq<Resource>)
    requires p1.Valid() && p2.Valid() && rec.relationships.Some?
    requires forall p :: p in Linked(rec.relationships.value) ==>
      ResolveData(rec.relationships.value[p], p1, chain + [rec]) == ResolveData(rec.relationships.value[p], p2, chain + [rec])
    ensures Inline(rec, p1, chain) == Inline(rec, p2, chain)
  {
    var rels := rec.relationships.value;
    var m1 := map p | p in Linked(rels) :: ResolveData(rels[p], p1, chain + [rec]);
    var m2 := map p | p in Linked(rels) :: ResolveData(rels[p], p2, chain + [rec]);
    assert m1 == m2;
    assert Inline(rec, p1, chain) == Collect(m1);
    assert Inline(rec, p2, chain) == Collect(m2);
  }

  /** Pools that find the same resources expand a record identically. */
  lemma {:induction false} ExpandAgrees(rec: Resource, p1: Pool, p2: Pool, chain: seq<Resource>)
    requires p1.Valid() && p2.Valid() && SameFinds(p1, p2)
    ensures Expand(rec, p1, chain) == Expand(rec, p2, chain)
    decreases |p1.Keys() - ChainKeys(chain + [rec])|, 4
  {
    InlineAgrees(rec, p1, p2, chain);
  }

  lemma ExpandEachAgrees(rs: seq<Resource>, p1: Pool, p2: Pool)
    requires p1.Valid() && p2.Valid() && SameFinds(p1, p2)
    ensures ExpandEach(rs, p1) == ExpandEach(rs, p2)
  {
    forall i | 0 <= i < |rs| ensures Expand(rs[i], p1, []) == Expand(rs[i], p2, []) {
      ExpandAgrees(rs[i], p1, p2, []);
    }
    var r1, r2 := ExpandEach(rs, p1), ExpandEach(rs, p2);
    if r1.Ok? {
      assert r1.value == r2.value;
    }
  }

  /** Array `data` deserializes the same way in both versions when
      duplicate keys in `included` carry identical resources. */
  lemma DeserializesAgree(json: Value, rs: seq<Resource>, included: seq<Resource>)
    requires ConsistentDuplicates(included)
    ensures Dist.Deserialize(json, Dist.Doc(Dist.Collection(rs), included))
         == Src.Deserialize(json, Src.Doc(Src.Records(rs), included))
  {
    var p1, p2 := LastWins(BuildIndex(included)), FirstMatch(included);
    forall k ensures p1.Find(k) == p2.Find(k) {
      LookupsAgree(included, k);
    }
    ExpandEachAgrees(rs, p1, p2);
  }

  /** For a plain-object document whose `data` is an array and whose
      `included` repeats a key only with an identical resource, dist and src
      give the same outcome. */
  lemma ParsesAgree(response: Value, parseText: string -> JsonText)
    requires response.Obj? && Get(response, "data").Arr?
    requires Dist.Covered(response, parseText) && Src.Covered(response, parseText)
    requires DecodeIncluded(Get(response, "included")).Some?
    requires ConsistentDuplicates(DecodeIncluded(Get(response, "included")).value)
    ensures Dist.Parse(response, parseText) == Src.Parse(response, parseText)
  {
    if !Marked(response) {
      assert Dist.Entry(response, parseText) == Continue(response);
      assert Src.Entry(response, parseText) == Continue(response);
      var dd, sd := Dist.DecodeDoc(response).value, Src.DecodeDoc(response).value;
      var data := Get(response, "data");
      assert Dist.DecodeData(data) == Some(dd.data) && Src.DecodeData(data) == Some(sd.data);
      assert dd.data.Collection? && sd.data.Records? && dd.data.records == sd.data.records;
      DeserializesAgree(response, dd.data.records, dd.included);
    }
  }

}

=== FILE: wrappers.dfy ===
/** The optional-value wrapper used throughout the model. */
module Wrappers {

  datatype Option<+T> = None | Some(value: T) {

    /** The wrapped value, or `default` when there is none. */
    function GetOr(default: T): (r: T)
      ensures Some? ==> r == value
      ensures None? ==> r == default
    {
      match this
      case Some(v) => v
      case None => default
    }
  }

}
